=== FILE: README.md ===
# Educational video platform: verified model of the client-side core

The platform is a React single-page application over a hosted Postgres
backend. Creators upload videos through a four-step wizard. An
administrator's upload is published at once; anyone else's waits in a
moderation queue that administrators approve or decline. Viewers are
counted per browser session. Users follow creators, like videos, comment
and reply, and collect notifications. A hook keeps a bounded cache of
on-page video elements. Sign-in is a demo store kept in the browser's
`localStorage`.

This project models that behaviour in Dafny, one module per source file:

| module | source file | form |
|---|---|---|
| `Common` | helpers for `trim()` and `toString()` | functions and lemmas |
| `Tables` | the backend tables the core touches | datatypes, a `Database` class |
| `UploadModal` | `src/components/UploadModal.tsx` | class `UploadForm` |
| `AdminApprovals` | `src/pages/AdminApprovals.tsx` | class `ApprovalsPage` |
| `ViewTracking` | `src/hooks/useViewTracking.ts` | method over `Database` |
| `FollowSystem` | `src/hooks/useFollowSystem.ts` | class `FollowState` |
| `VideoWatch` | `src/pages/VideoWatch.tsx` | class `WatchPage` |
| `Notifications` | `src/contexts/NotificationContext.tsx` | class `NotificationCenter` |
| `Comments` | `src/components/CommentSection.tsx` | class `CommentSection` |
| `VideoMemory` | `src/hooks/useVideoMemoryManager.ts` | class `VideoMemoryManager` |
| `Auth` | `src/contexts/AuthContext.tsx` | class `AuthProvider` |
| `VideoCard` | `src/components/VideoCard.tsx` | functions and lemmas |

Component state that the source updates in place is a class whose methods
name what they modify. Each backend table is a map from row id to row,
held in one `Database` object. Every backend call becomes a parameter that
says whether the call succeeded and which id the backend chose. An insert
succeeds only when the call succeeds and the id is not already taken.
Every clock reading is also a parameter. Each `localStorage` key a
component uses is a field of its class.

The list updates are pure functions, for example marking a notification
read, adding a reply, or filtering a moderation card out. The handlers are
proved to install exactly those lists. The properties the application
relies on are proved as lemmas about the functions:

- a like toggled twice is restored;
- marking all notifications read leaves nothing unread;
- eviction leaves exactly the configured number of invisible videos;
- a recorded view makes the stored view count one more than before;
- the "time ago" text can be read back to the bucket it came from.

Each file's handlers are modelled against the record shape that file
itself uses. Several files hand `addNotification` objects of different
shapes, and these are kept apart rather than reconciled.

Some behaviours of the source are visible in the contracts:

- Approval copies seven columns and drops `scheduled_date`
  (`AdminApprovals.ApprovedCopy`).
- An unfollow when no row exists still lowers the local follower counter
  (`FollowSystem.FollowState.ToggleFollow`), so the counter no longer
  matches the table (`FollowSystem.UnfollowWithoutRowLeavesTableCount`).
- A video's `views` stops growing at the backend's page size, because the
  recount writes the length of the returned rows rather than the exact
  count (`ViewTracking.RecountSaturates`).
- Duplicate follow rows read as "not following", because the status
  query demands exactly one row (`FollowSystem.FollowState.CheckFollowStatus`).
- Login ignores the password and never consults the stored accounts
  (`Auth.AuthProvider.Login`).
- A creation date in the future is shown as a negative number of days
  (`VideoCard.FutureDateShowsNegativeDays`).

## Model

| member | source | states |
|---|---|---|
| `Common.Trim` | src/components/UploadModal.tsx:95-104 | `trim()` yields the factor of the input left after dropping whitespace at both ends: it starts and ends with a non-space character, and it is empty exactly when the input is all whitespace |
| `Common.TrimIdempotent` | src/components/UploadModal.tsx:54-57 | trimming a trimmed string changes nothing, so a title the guard accepts is stored non-blank |
| `Common.NatToString` | src/components/VideoCard.tsx:28 | a whole number renders as decimal digits with no leading zero |
| `Common.IntToStringRoundTrip` | src/components/VideoCard.tsx:28 | the decimal text of any integer parses back to that integer |
| `Common.IntToStringInjective` | src/components/CommentSection.tsx:47 | ids made from different timestamps differ |
| `Tables.ViewIdsOf` | src/hooks/useViewTracking.ts:41-44 | the rows the recount counts are rows of `video_views` |
| `Tables.ViewIdsDisjoint` | src/hooks/useViewTracking.ts:41-44 | a view row counts for one video only: the rows counted for two different videos never overlap |
| `Tables.ViewCountAfterInsert` | src/hooks/useViewTracking.ts:30-44 | inserting a view row under a fresh id adds one to that video's count and leaves every other video's count unchanged |
| `Tables.FollowIdsTo` | src/hooks/useFollowSystem.ts:42-45 | the rows the count query counts are rows of `follows`, and the count is zero exactly when no row follows the target |
| `Tables.FollowIdsFor` | src/hooks/useFollowSystem.ts:25-30 | the rows the status query matches for (follower, target) are among the rows the count query counts for the target |
| `Tables.DeleteFollows` | src/hooks/useFollowSystem.ts:62-66 | the unfollow delete removes every row for (follower, target) and keeps every other row unchanged |
| `VideoCard.DaysBetween` | src/components/VideoCard.tsx:33-34 | the day count is the floor of the millisecond difference over 86400000, negative exactly when the date is in the future |
| `VideoCard.AgeOf` | src/components/VideoCard.tsx:36-41 | 0 days gives Today and 1 day gives OneDay; other values below 7 give Days(n); 7..29 give Weeks 1..4; 30..364 give Months 1..12; 365 and above give Years at least 1. Each shown number is the floor quotient |
| `VideoCard.FutureDateShowsNegativeDays` | src/components/VideoCard.tsx:33-38 | a future creation date falls into the "n days ago" branch with a negative n |
| `VideoCard.RenderRoundTrip` | src/components/VideoCard.tsx:36-41 | every text `formatTimeAgo` produces reads back to the bucket and number it came from, so distinct buckets never share a text |
| `VideoCard.ScaleOf` | src/components/VideoCard.tsx:22-27 | a count gets the M suffix iff it is at least 1000000, K iff it is in 1000..999999, and no suffix iff it is below 1000 |
| `VideoCard.ScaleMonotonic` | src/components/VideoCard.tsx:22-28 | a larger count never gets a smaller suffix |
| `VideoCard.FormatPlainViews` | src/components/VideoCard.tsx:28 | below 1000 the count is shown as its decimal text, which parses back to it and has 1 to 3 characters when non-negative |
| `UploadModal.VisibilityText` | src/components/UploadModal.tsx:102 | the stored visibility is one of "public", "private", "scheduled" |
| `UploadModal.VisibilityTextInjective` | src/components/UploadModal.tsx:102 | different choices are stored as different texts |
| `UploadModal.BuildRecord` | src/components/UploadModal.tsx:95-104 | the record has the trimmed title and a null description iff the description is blank (otherwise the trimmed text). It has the video URL, the creator id, views 0, and the visibility text. `scheduled_date` is present iff the visibility is scheduled |
| `UploadModal.NextDisabledIffStuck` | src/components/UploadModal.tsx:398-402 | on steps 1 to 3 the Next button is disabled exactly when `nextStep` would not advance |
| `UploadModal.UploadForm.constructor` | src/components/UploadModal.tsx:20-28 | the wizard opens empty on step 1 |
| `UploadModal.UploadForm.NextStep` | src/components/UploadModal.tsx:30-45 | the wizard advances one step and records the step left behind iff that step's fields are filled in. No other field changes, and the step stays in 1..4 |
| `UploadModal.UploadForm.PrevStep` | src/components/UploadModal.tsx:47-51 | the step goes back by one, never below 1 |
| `UploadModal.UploadForm.Reset` | src/components/UploadModal.tsx:164-173 | every field is cleared and the wizard is on step 1 with no completed steps |
| `UploadModal.UploadForm.FinalUpload` | src/components/UploadModal.tsx:53-162 | with no profile, a blank title or no video nothing is written. A failed video upload writes nothing. Otherwise the built record is routed by the admin flag, and only a stored record resets the form. Once the video is uploaded, only the insert can make the upload fail: a failed thumbnail upload or thumbnail row leaves the record stored. `isUploading` is false once the upload has run |
| `UploadModal.StoreRecord` | src/components/UploadModal.tsx:106-150 | an admin's record goes into `videos`, anyone else's into `videos_for_approval`, never both. A failed insert writes nothing. A `thumbnails` row is added only after a stored record with a non-empty thumbnail URL |
| `UploadModal.RoutedRecordIsStored` | src/components/UploadModal.tsx:106-150 | a published or pending outcome holds exactly the built record, with a non-blank title, under the new id, and the other table is unchanged |
| `AdminApprovals.OrElse` | src/pages/AdminApprovals.tsx:54-65 | JavaScript `value \|\| fallback`: the result is the value or the fallback. It is empty only when the value is missing or empty and the fallback is empty too, so a non-empty default always shows |
| `AdminApprovals.FormatPending` | src/pages/AdminApprovals.tsx:54-65 | each card carries the row's id, title and date. Missing descriptions, thumbnails, creator names and avatars get their defaults, so thumbnail, creator name and avatar are never empty |
| `AdminApprovals.FormatAll` | src/pages/AdminApprovals.tsx:54-66 | one card per row, in the query's order |
| `AdminApprovals.ApprovedCopy` | src/pages/AdminApprovals.tsx:96-107 | approval copies title, description, thumbnail, video URL, creator, views and visibility, and no `scheduled_date` |
| `AdminApprovals.WithoutVideo` | src/pages/AdminApprovals.tsx:127 | no card with the approved or declined id remains, and the list does not grow |
| `AdminApprovals.WithoutId` | src/pages/AdminApprovals.tsx:137 | an id is still being processed iff it was before and it is not the finished id |
| `AdminApprovals.WithoutVideoAppend` | src/pages/AdminApprovals.tsx:127 | removing a card from a concatenation removes it from each part |
| `AdminApprovals.WithoutVideoAbsent` | src/pages/AdminApprovals.tsx:159 | filtering out an id no card carries leaves the list unchanged |
| `AdminApprovals.WithoutIdAppend` | src/pages/AdminApprovals.tsx:79-137 | marking an id as processing and unmarking it leaves the other ids as they were |
| `AdminApprovals.WithoutVideoRemovesOne` | src/pages/AdminApprovals.tsx:127 | when one card carries the id, the remaining cards are those before it followed by those after it |
| `AdminApprovals.WithoutVideoKeepsOthers` | src/pages/AdminApprovals.tsx:159 | every card with another id survives the filter |
| `AdminApprovals.ApprovalsPage.constructor` | src/pages/AdminApprovals.tsx:25-27 | the page starts loading with no cards and nothing processing |
| `AdminApprovals.ApprovalsPage.LoadPendingVideos` | src/pages/AdminApprovals.tsx:29-75 | only an administrator's page loads. A successful query installs one formatted card per row, a failed one keeps the list, and loading ends |
| `AdminApprovals.ApprovalsPage.ApproveVideo` | src/pages/AdminApprovals.tsx:77-139 | the id is in the processing list (which disables the buttons) while the steps run (see `ApproveSteps`) and is taken out after. The approved copy enters `videos` only after a successful fetch and insert. The row leaves the queue, and the card the page, only after the delete also succeeds. Each failure stops at once |
| `AdminApprovals.ApprovalsPage.ApproveSteps` | src/pages/AdminApprovals.tsx:79-131 | runs only while the card's id is in the processing list (its buttons disabled); it does not touch that list (frame). Fetch, insert and delete run in order and the first failure ends the run. A failed insert leaves `videos` unchanged. A failed delete leaves the inserted copy in place |
| `AdminApprovals.ApprovalsPage.DeclineVideo` | src/pages/AdminApprovals.tsx:141-171 | the id is in the processing list while the delete runs (see `DeclineSteps`) and is taken out after. A successful delete drops the row and its card. Nothing enters `videos` |
| `AdminApprovals.ApprovalsPage.DeclineSteps` | src/pages/AdminApprovals.tsx:143-165 | runs only while the card's id is in the processing list (its buttons disabled); it does not touch that list (frame). The delete either drops the row and the card or changes nothing |
| `ViewTracking.SessionStore.constructor` | src/hooks/useViewTracking.ts:15 | the store holds whatever session id was saved |
| `ViewTracking.SessionIdFor` | src/hooks/useViewTracking.ts:15 | the session id is the stored one or the generated one. A stored non-empty id always wins, and with a non-empty generated id the result is never empty |
| `ViewTracking.ViewerId` | src/hooks/useViewTracking.ts:26 | the viewer id is never the empty string and is always the profile's id; a guest is null |
| `ViewTracking.SetViews` | src/hooks/useViewTracking.ts:47-50 | only the tracked video's `views` changes; every other row is untouched |
| `ViewTracking.TrackView` | src/hooks/useViewTracking.ts:10-55 | with a video id, the session id is stored. A view row is inserted unless one was found. After a successful insert and recount, the video's `views` becomes the length of the recount's reply: its number of view rows, capped at the backend's page size. Every failure ends quietly and no other table changes |
| `ViewTracking.RecountAfterInsert` | src/hooks/useViewTracking.ts:30-51 | while the video has fewer rows than the page size, a recorded view makes the stored count one more than the number of rows before |
| `ViewTracking.PageLength` | src/hooks/useViewTracking.ts:41-50 | the written `viewCount.length` is the row count when it fits in one reply, and the page size otherwise; never more than either |
| `ViewTracking.RecountSaturates` | src/hooks/useViewTracking.ts:41-50 | from the page size on, a recorded view writes the page size, fewer than the video's rows: the counter stops growing |
| `ViewTracking.SessionIdIsStable` | src/hooks/useViewTracking.ts:15-16 | once stored, the same session id is used by every later run |
| `FollowSystem.FollowNoticeFor` | src/hooks/useFollowSystem.ts:85-90 | the notice is addressed to the target, with type follow, title "New Follower" and content "<name> started following you", which starts with the follower's name |
| `FollowSystem.FollowState.constructor` | src/hooks/useFollowSystem.ts:7-12 | not following, zero followers, not loading |
| `FollowSystem.FollowState.CheckFollowStatus` | src/hooks/useFollowSystem.ts:21-36 | with a profile and a target, "following" holds iff the query succeeds and exactly one row exists for (profile, target); otherwise nothing changes |
| `FollowSystem.FollowState.LoadFollowerCount` | src/hooks/useFollowSystem.ts:38-52 | a successful count becomes the number of rows following the target; a failure keeps the old count |
| `FollowSystem.FollowState.ToggleFollow` | src/hooks/useFollowSystem.ts:54-97 | with no profile or target, or during a toggle, nothing happens. Unfollow deletes every matching row and lowers the counter. Follow inserts one row, raises the counter and sends the notice. A failed write changes no state, and loading ends |
| `FollowSystem.FollowAddsOneFollower` | src/hooks/useFollowSystem.ts:73-82 | a follow adds exactly one row to the target's followers, so a matching counter stays matched |
| `FollowSystem.UnfollowRemovesOneFollower` | src/hooks/useFollowSystem.ts:60-70 | with exactly one matching row, an unfollow removes exactly one follower |
| `FollowSystem.UnfollowWithoutRowLeavesTableCount` | src/hooks/useFollowSystem.ts:60-70 | with no matching row the delete changes nothing, so a counter that matched the table before no longer matches it after the unfollow lowers it by one |
| `VideoWatch.Flip` | src/pages/VideoWatch.tsx:64-68 | a click flips the like flag and moves the count by +1 on a like and -1 on an unlike |
| `VideoWatch.FlipTwiceRestores` | src/pages/VideoWatch.tsx:64-68 | two clicks restore the flag and the count |
| `VideoWatch.LikeNoticeFor` | src/pages/VideoWatch.tsx:70-77 | a like notice exists iff the click is a like (not an unlike), a video is loaded and its creator is someone else. Its message is `<name> liked your video "<title>"` |
| `VideoWatch.NoFollowButtonForCreatorOrGuest` | src/pages/VideoWatch.tsx:205 | no follow button is shown to a signed-out visitor or to the video's own creator |
| `VideoWatch.WatchPage.constructor` | src/pages/VideoWatch.tsx:28-31 | no video, not liked, not following |
| `VideoWatch.WatchPage.HandleLike` | src/pages/VideoWatch.tsx:61-78 | without a user nothing changes. Otherwise the flag flips, the loaded video's likes follow, and the notice is the one `LikeNoticeFor` gives for the state before the click |
| `VideoWatch.WatchPage.HandleFollow` | src/pages/VideoWatch.tsx:80-83 | a signed-in user's click flips `following`; otherwise nothing changes |
| `Notifications.UnreadCount` | src/contexts/NotificationContext.tsx:82 | the unread count is at most the length, is 0 iff every entry is read, and equals the length iff none is read |
| `Notifications.Stamp` | src/contexts/NotificationContext.tsx:57-61 | the new entry keeps the draft's type, message and read flag, and its id parses back to its timestamp |
| `Notifications.MarkRead` | src/contexts/NotificationContext.tsx:69-71 | entries with the id become read; every other entry, the length and the order are unchanged |
| `Notifications.MarkAllRead` | src/contexts/NotificationContext.tsx:77 | every entry becomes read with nothing else changed, in the same order |
| `Notifications.AddChangesUnreadByOne` | src/contexts/NotificationContext.tsx:63 | a new entry raises the unread count by one iff it is unread |
| `Notifications.MarkReadNeverIncreasesUnread` | src/contexts/NotificationContext.tsx:68-82 | marking one id read never raises the unread count |
| `Notifications.MarkReadOfAbsentIdIsIdentity` | src/contexts/NotificationContext.tsx:69-71 | an id no entry carries changes nothing |
| `Notifications.MarkAllReadClearsUnread` | src/contexts/NotificationContext.tsx:76-82 | after marking all read the unread count is 0, and doing it again changes nothing |
| `Notifications.StorageKey` | src/contexts/NotificationContext.tsx:39 | the key is "notifications_" followed by the user id |
| `Notifications.StorageKeysDistinct` | src/contexts/NotificationContext.tsx:52 | different users' lists are saved under different keys |
| `Notifications.NotificationCenter.constructor` | src/contexts/NotificationContext.tsx:33-34 | an empty list and no user |
| `Notifications.NotificationCenter.Save` | src/contexts/NotificationContext.tsx:50-54 | the list is written under the user's key when a user is present, and nothing is written otherwise |
| `Notifications.NotificationCenter.OnUserChange` | src/contexts/NotificationContext.tsx:36-48 | a saved list for the new user replaces the current one; with no user or nothing saved the list is untouched |
| `Notifications.NotificationCenter.AddNotification` | src/contexts/NotificationContext.tsx:56-66 | the stamped entry goes first, the old entries follow in order, and the new list is what is saved |
| `Notifications.NotificationCenter.MarkAsRead` | src/contexts/NotificationContext.tsx:68-74 | the list becomes `MarkRead` of the old list and exactly that list is saved |
| `Notifications.NotificationCenter.MarkAllAsRead` | src/contexts/NotificationContext.tsx:76-80 | the list becomes `MarkAllRead` of the old list and exactly that list is saved |
| `Comments.NewComment` | src/components/CommentSection.tsx:46-57 | a new comment has the given content, the profile as author, 0 likes, no replies, not liked, and an id that parses back to its timestamp |
| `Comments.ToggleLike` | src/components/CommentSection.tsx:113 | the flag flips, likes move by +1 on a like and -1 on an unlike, and nothing else changes |
| `Comments.ToggleLikeTwice` | src/components/CommentSection.tsx:113 | two clicks restore the comment |
| `Comments.LikeWhere` | src/components/CommentSection.tsx:111-115 | comments with the id are toggled; every other comment, the length and the order are unchanged |
| `Comments.LikeWhereTwice` | src/components/CommentSection.tsx:111-115 | liking the same comment twice restores the list |
| `Comments.LikeReply` | src/components/CommentSection.tsx:97-109 | only the replies with the reply id under comments with the parent id are toggled; every other comment is unchanged |
| `Comments.LikeReplyTwice` | src/components/CommentSection.tsx:97-109 | liking the same reply twice restores the list |
| `Comments.AddReply` | src/components/CommentSection.tsx:86-90 | the reply is appended to the replies of each comment with the parent id; every other comment is unchanged |
| `Comments.AddReplyWithoutParent` | src/components/CommentSection.tsx:86-90 | with no matching parent the list is unchanged |
| `Comments.AddReplyCountsOnePerParent` | src/components/CommentSection.tsx:86-90 | the number of replies grows by the number of comments with the parent id, so by one when it is unique |
| `Comments.LikeReplyKeepsReplyTotal` | src/components/CommentSection.tsx:96-117 | likes never change the number of replies |
| `Comments.CommentNotice` | src/components/CommentSection.tsx:63-67 | the notice has type comment, is unread, and its message is `<name> commented on a video`, which starts with the commenter's name |
| `Comments.CommentSection.constructor` | src/components/CommentSection.tsx:26-40 | no comments and empty inputs |
| `Comments.CommentSection.SubmitComment` | src/components/CommentSection.tsx:42-68 | a blank input or no profile changes nothing and sends nothing. Otherwise the new comment is prepended, the input is cleared, and one comment notice is sent |
| `Comments.CommentSection.SubmitReply` | src/components/CommentSection.tsx:70-94 | a blank reply or no profile changes nothing. Otherwise the reply is added under the parent, and the reply input and box are cleared. No notice is sent |
| `Comments.CommentSection.HandleLike` | src/components/CommentSection.tsx:96-117 | a reply like with a non-empty parent id toggles that reply; anything else toggles the top-level comment with the id |
| `VideoMemory.Put` | src/hooks/useVideoMemoryManager.ts:17 | `Map.set`: the key maps to the value. A known key keeps its place, a new key goes last, and the size grows by at most one |
| `VideoMemory.Delete` | src/hooks/useVideoMemoryManager.ts:28-29 | `Map.delete`: the key and its value go, and the other keys keep their order |
| `VideoMemory.DeleteAllRemovesElems` | src/hooks/useVideoMemoryManager.ts:53-55 | unregistering a list of ids removes exactly those ids from the key order and the values |
| `VideoMemory.InvisibleIds` | src/hooks/useVideoMemoryManager.ts:44-48 | the collected invisible ids have no repeats |
| `VideoMemory.InvisiblesWithout` | src/hooks/useVideoMemoryManager.ts:44-55 | removing ids from the visibility map removes them from the invisible list and nothing else |
| `VideoMemory.Evicted` | src/hooks/useVideoMemoryManager.ts:51-52 | nothing is evicted when at most `max` ids are invisible; otherwise the oldest invisible ids are evicted, all but `max` of them |
| `VideoMemory.EvictionLeavesMaxInvisible` | src/hooks/useVideoMemoryManager.ts:41-57 | after eviction exactly `max` invisible ids remain when there were more, and otherwise the invisible ids are unchanged |
| `VideoMemory.CleanupKeepsVisible` | src/hooks/useVideoMemoryManager.ts:41-65 | neither eviction nor forced cleanup removes a visible id from either map |
| `VideoMemory.ForceCleanupLeavesNoInvisible` | src/hooks/useVideoMemoryManager.ts:59-65 | after forced cleanup no invisible id remains |
| `VideoMemory.DeleteAllKeysEmpties` | src/hooks/useVideoMemoryManager.ts:68-74 | unregistering every registered id empties the element map |
| `VideoMemory.VideoMemoryManager.constructor` | src/hooks/useVideoMemoryManager.ts:12-14 | both maps start empty; the limits default to 50 and 100 |
| `VideoMemory.VideoMemoryManager.CachedVideoCount` | src/hooks/useVideoMemoryManager.ts:81 | the count is the number of distinct ids with a registered element |
| `VideoMemory.VideoMemoryManager.Register` | src/hooks/useVideoMemoryManager.ts:16-18 | the id maps to the new element, replacing any earlier one |
| `VideoMemory.VideoMemoryManager.Unregister` | src/hooks/useVideoMemoryManager.ts:20-30 | the id leaves both maps and every other entry stays |
| `VideoMemory.VideoMemoryManager.UnregisterAll` | src/hooks/useVideoMemoryManager.ts:53-55 | each id is unregistered in turn |
| `VideoMemory.VideoMemoryManager.CollectInvisible` | src/hooks/useVideoMemoryManager.ts:42-48 | the loop collects exactly the invisible ids in insertion order |
| `VideoMemory.VideoMemoryManager.CleanupInvisible` | src/hooks/useVideoMemoryManager.ts:41-57 | exactly the ids `Evicted` names are unregistered |
| `VideoMemory.VideoMemoryManager.UpdateVisibility` | src/hooks/useVideoMemoryManager.ts:32-39 | the flag is recorded, and eviction runs iff more than `cleanupThreshold` elements are registered |
| `VideoMemory.VideoMemoryManager.ForceCleanup` | src/hooks/useVideoMemoryManager.ts:59-65 | every invisible id is unregistered |
| `VideoMemory.VideoMemoryManager.Unmount` | src/hooks/useVideoMemoryManager.ts:68-74 | every registered id is unregistered |
| `Auth.EmailPrefix` | src/contexts/AuthContext.tsx:75 | the name is the prefix of the e-mail before its first '@', or the whole e-mail when there is none |
| `Auth.EmailPrefixOfAddress` | src/contexts/AuthContext.tsx:75 | the prefix of `name@domain` is `name` when `name` has no '@' |
| `Auth.AccountRecord` | src/contexts/AuthContext.tsx:69-78 | `isAdmin` holds iff the e-mail is the administrator's. An administrator gets the fixed name and avatar; anyone else gets the given name and no avatar. The id parses back to the timestamp |
| `Auth.TokenAt` | src/contexts/AuthContext.tsx:80 | the token is "demo-token-" followed by the timestamp, so it is never empty |
| `Auth.Merge` | src/contexts/AuthContext.tsx:136 | each of the six fields takes the update's value when it is supplied and keeps the user's otherwise, so an update without `isAdmin` keeps the admin flag; an empty update changes nothing |
| `Auth.MergeIdempotent` | src/contexts/AuthContext.tsx:136 | applying the same update twice equals applying it once |
| `Auth.LoginNameIsMailbox` | src/contexts/AuthContext.tsx:72-78 | a non-administrator signing in as `name@domain` is shown as `name` |
| `Auth.AuthProvider.constructor` | src/contexts/AuthContext.tsx:33-34 | nobody signed in, loading, storage as saved |
| `Auth.AuthProvider.Restore` | src/contexts/AuthContext.tsx:36-62 | without a token nothing is restored. With a token, a stored user that parses is signed in, and one that does not parse clears both session keys. Loading ends |
| `Auth.AuthProvider.Login` | src/contexts/AuthContext.tsx:64-91 | the password is ignored. The new record is signed in and stored as `userData` with a fresh token, and the answer is true |
| `Auth.AuthProvider.Signup` | src/contexts/AuthContext.tsx:93-125 | the answer is true iff the e-mail has no account. A refusal stores nothing. Success stores the record as `userData` and under the e-mail, and signs it in |
| `Auth.AuthProvider.Logout` | src/contexts/AuthContext.tsx:127-131 | both session keys go and nobody is signed in; stored accounts stay |
| `Auth.AuthProvider.UpdateProfile` | src/contexts/AuthContext.tsx:133-139 | without a user nothing changes; otherwise the merged record is signed in and stored as `userData` |

## Left out

- `ViewTracking.TrackView`: the backend's page size is the `maxRows` reply parameter; its configured value (1000 rows by default) is not fixed in the model.
- Backend, storage and network calls: each call's success and the ids the backend assigns are parameters. The client library, row-level security and the SQL behind the queries are not part of this model.
- Backend timestamps: `created_at` and `updated_at` columns, and the `id` column beyond its use as the map key, are not modelled.
- Concurrency: every handler runs to completion before the next one starts. Interleaved async handlers, React state batching, several tabs or several moderators are not modelled.
- Rendering: JSX, toasts, console logging, navigation, dialogs closing (`onClose`), and the presentation-only pages and components are not modelled.
- Clocks: every `Date.now()` and `new Date()` reading is an integer parameter. Several operations read the clock twice and the model uses one reading for both: login and signup (record id and token), `addNotification` (id and `createdAt`), and the comment and reply submits of the comment section (id and `createdAt`).
- `localStorage` values are stored as the model's datatypes, so JSON encoding is not modelled. A notification list that fails to parse is not modelled either. Storage quota errors are not modelled, so the catch paths of `login` and `signup` that answer false for that reason are left out.
- `Auth.AuthProvider.Login`: always answers true, because its only failure path needs a storage error, which is not modelled.
- `VideoCard.FormatPlainViews`: covers only the branch below 1000. The K and M branches render `toFixed(1)` of a fractional quotient, and floating-point formatting is not modelled; which branch is taken is modelled by `VideoCard.ScaleOf`.
- View counts, day counts and timestamps are whole numbers; fractional or NaN values are not modelled.
- `generateSessionId` is not part of this model; its value is a parameter.
- The one-second delay before a view is tracked, and its cancellation on unmount, are not modelled.
- Which existing `video_views` row the lookup finds is not modelled. It is a parameter (`alreadyViewed`), so how its `user_id = null` filter treats anonymous viewers is not modelled either.
- The effect in `useFollowSystem` that runs both queries when the target changes is not a member of its own; the two queries are.
- Element side effects in `unregisterVideo` (pause, clearing `src`, reload) are not modelled. Cache options are whole numbers; negative or fractional limits are not modelled.
- The `VideoWatch` demo loader, which fills in a fixed sample video after a timer, is not modelled; the loaded video is a field.
- Comment avatars are carried but never inspected; `loadComments` only empties the list, which is the constructor's state.
- The `data` field of a notification is never set by the core and is left out.
- The `refreshPendingCount` call after a successful approval or decline is not modelled. The notification provider defines no such function, so the call would fail after the card is already removed; it changes no modelled state and only affects which toast is shown.

=== FILE: admin_approvals.dfy ===
/** The moderation page: the list of videos waiting in
    `videos_for_approval`, and the approve and decline handlers that move a
    video into `videos` or drop it. Each handler marks the video as being
    processed (which disables its two buttons) until it finishes. */
module AdminApprovals {
  import opened Common
  import opened Tables

  /** The picture shown when a video has no thumbnail or a creator no avatar. */
  const DefaultImage: string := "/lovable-uploads/544d0b71-3b60-4f04-81da-d190b8007a11.png"

  datatype Creator = Creator(id: string, name: string, avatar: string)

  /** One card of the page. */
  datatype PendingVideo = PendingVideo(id: string, title: string, description: string,
                                       thumbnail: string, createdAt: string, creator: Creator)

  /** The profile joined to a pending row, when the join found one. */
  datatype CreatorProfile = CreatorProfile(id: Option<string>, name: Option<string>, avatar: Option<string>)

  /** A row as the page's query returns it: the pending record joined with
      its creator's profile. */
  datatype JoinedRow = JoinedRow(id: string, record: VideoRecord, createdAt: string, creator: Option<CreatorProfile>)

  /** The signed-in profile, as this page reads it. */
  datatype Profile = Profile(id: string, isAdmin: bool)

  /** JavaScript's `value || fallback` on an optional string: null, undefined
      and the empty string all give the fallback. */
  function OrElse(value: Option<string>, fallback: string): (r: string)
    ensures r == fallback || Some(r) == value
    ensures r == "" <==> (value.None? || value.value == "") && fallback == ""
    ensures Some(r) != value ==> r == fallback && (value.None? || value.value == "")
  {
    if value.Some? && value.value != "" then value.value else fallback
  }

  /** The `map` of `loadPendingVideos`: defaults replace every missing field. */
  function FormatPending(row: JoinedRow): (v: PendingVideo)
    ensures v.id == row.id && v.title == row.record.title && v.createdAt == row.createdAt
    ensures v.description == OrElse(row.record.description, "")
    ensures v.thumbnail == OrElse(row.record.thumbnail, DefaultImage)
    ensures row.creator.None? ==> v.creator == Creator("", "Unknown", DefaultImage)
    ensures row.creator.Some? ==> v.creator == Creator(OrElse(row.creator.value.id, ""),
                                                       OrElse(row.creator.value.name, "Unknown"),
                                                       OrElse(row.creator.value.avatar, DefaultImage))
    ensures v.thumbnail != "" && v.creator.name != "" && v.creator.avatar != ""
  {
    var c := if row.creator.Some? then row.creator.value else CreatorProfile(None, None, None);
    PendingVideo(row.id, row.record.title, OrElse(row.record.description, ""),
                 OrElse(row.record.thumbnail, DefaultImage), row.createdAt,
                 Creator(OrElse(c.id, ""), OrElse(c.name, "Unknown"), OrElse(c.avatar, DefaultImage)))
  }

  function FormatAll(rows: seq<JoinedRow>): (vs: seq<PendingVideo>)
    ensures |vs| == |rows|
    ensures forall k :: 0 <= k < |rows| ==> vs[k] == FormatPending(rows[k])
  {
    if rows == [] then [] else [FormatPending(rows[0])] + FormatAll(rows[1..])
  }

  /** The record that approval inserts into `videos`: the pending row's title,
      description, thumbnail, video URL, creator, views and visibility. The
      `scheduled_date` is not among the copied columns. */
  function ApprovedCopy(pending: VideoRecord): (r: VideoRecord)
    ensures r.title == pending.title && r.description == pending.description
    ensures r.thumbnail == pending.thumbnail && r.videoUrl == pending.videoUrl
    ensures r.creatorId == pending.creatorId && r.views == pending.views
    ensures r.visibility == pending.visibility
    ensures r.scheduledDate.None?
  {
    pending.(scheduledDate := None)
  }

  /** The cards whose id is not `id`, in the same order. */
  function WithoutVideo(vs: seq<PendingVideo>, id: string): (r: seq<PendingVideo>)
    ensures |r| <= |vs|
    ensures forall k :: 0 <= k < |r| ==> r[k].id != id
  {
    if vs == [] then []
    else if vs[0].id == id then WithoutVideo(vs[1..], id)
    else [vs[0]] + WithoutVideo(vs[1..], id)
  }

  /** `prev.filter(id => id !== videoId)` on the processing list. */
  function WithoutId(ids: seq<string>, id: string): (r: seq<string>)
    ensures id !in r
    ensures forall x :: x in r <==> x in ids && x != id
  {
    if ids == [] then []
    else if ids[0] == id then WithoutId(ids[1..], id)
    else [ids[0]] + WithoutId(ids[1..], id)
  }

  /** Removing cards from a list split in two removes them from each part:
      the cards that stay keep their order. */
  lemma {:induction false} WithoutVideoAppend(a: seq<PendingVideo>, b: seq<PendingVideo>, id: string)
    ensures WithoutVideo(a + b, id) == WithoutVideo(a, id) + WithoutVideo(b, id)
  {
    if a == [] {
      assert a + b == b;
    } else {
      assert (a + b)[0] == a[0];
      assert (a + b)[1..] == a[1..] + b;
      WithoutVideoAppend(a[1..], b, id);
    }
  }

  /** Removing an id that is not on the list changes nothing. */
  lemma {:induction false} WithoutVideoAbsent(vs: seq<PendingVideo>, id: string)
    requires forall k :: 0 <= k < |vs| ==> vs[k].id != id
    ensures WithoutVideo(vs, id) == vs
  {
    if vs != [] {
      WithoutVideoAbsent(vs[1..], id);
    }
  }

  /** What the three backend steps of an approval answer. */
  datatype ApproveReplies = ApproveReplies(fetchOk: bool, insertOk: bool, newVideoId: string, deleteOk: bool)

  /** How a handler ended. */
  datatype Decision = FetchFailed | InsertFailed | DeleteFailed | Approved(newId: string) | DeclineFailed | Declined

  class ApprovalsPage {
    var pendingVideos: seq<PendingVideo>
    var loading: bool
    var processingVideos: seq<string>

    constructor ()
      ensures pendingVideos == [] && loading && processingVideos == []
    {
      pendingVideos, loading, processingVideos := [], true, [];
    }

    /** The `disabled` attribute of both buttons of a card. */
    predicate ButtonsDisabled(id: string)
      reads this
    {
      id in processingVideos
    }

    /** The guard of the page: anyone but an admin sees "Access Denied". */
    static predicate AccessDenied(profile: Option<Profile>)
    {
      profile.None? || !profile.value.isAdmin
    }

    /** The effect that runs when the profile changes: only an admin's page
        loads the queue. `rows` is what the query returns, newest first, or
        None when it fails. */
    method LoadPendingVideos(profile: Option<Profile>, rows: Option<seq<JoinedRow>>)
      modifies this
      ensures processingVideos == old(processingVideos)
      ensures AccessDenied(profile) ==> pendingVideos == old(pendingVideos) && loading == old(loading)
      ensures !AccessDenied(profile) ==> !loading
      ensures !AccessDenied(profile) && rows.Some? ==> pendingVideos == FormatAll(rows.value)
      ensures !AccessDenied(profile) && rows.None? ==> pendingVideos == old(pendingVideos)
    {
      if AccessDenied(profile) {
        return;
      }
      if rows.Some? {
        pendingVideos := FormatAll(rows.value);
      }
      loading := false;
    }

    /** `handleApproveVideo`: fetch the pending row, insert its copy into
        `videos`, delete it from `videos_for_approval`, then drop its card.
        Each step can fail and end the handler at once. The id is listed in
        `processingVideos` (which disables the card's buttons) while the
        steps run and is taken out again afterwards. */
    method ApproveVideo(videoId: string, db: Database, replies: ApproveReplies)
      returns (decision: Decision)
      modifies this, db
      ensures processingVideos == WithoutId(old(processingVideos), videoId)
      ensures var fetched := replies.fetchOk && videoId in old(db.videosForApproval);
        var inserted := fetched && InsertSucceeds(replies.insertOk, old(db.videos), replies.newVideoId);
        var deleted := inserted && replies.deleteOk;
        && decision == (if !fetched then FetchFailed else if !inserted then InsertFailed
                        else if !deleted then DeleteFailed else Approved(replies.newVideoId))
        && db.videos == (if inserted
                         then old(db.videos)[replies.newVideoId := ApprovedCopy(old(db.videosForApproval)[videoId])]
                         else old(db.videos))
        && db.videosForApproval == (if deleted then old(db.videosForApproval) - {videoId}
                                    else old(db.videosForApproval))
        && pendingVideos == (if deleted then WithoutVideo(old(pendingVideos), videoId)
                             else old(pendingVideos))
      ensures loading == old(loading)
      ensures db.thumbnails == old(db.thumbnails) && db.videoViews == old(db.videoViews)
      ensures db.follows == old(db.follows)
    {
      processingVideos := processingVideos + [videoId];
      decision := ApproveSteps(videoId, db, replies);
      processingVideos := WithoutId(processingVideos, videoId);
      assert WithoutId(old(processingVideos) + [videoId], videoId) == WithoutId(old(processingVideos), videoId) by {
        WithoutIdAppend(old(processingVideos), videoId);
      }
    }

    /** The body of the `try` block of `handleApproveVideo`, run while the
        card's buttons are disabled; they stay disabled throughout. */
    method ApproveSteps(videoId: string, db: Database, replies: ApproveReplies) returns (decision: Decision)
      requires ButtonsDisabled(videoId)
      modifies this`pendingVideos, db
      ensures ButtonsDisabled(videoId)
      ensures var fetched := replies.fetchOk && videoId in old(db.videosForApproval);
        var inserted := fetched && InsertSucceeds(replies.insertOk, old(db.videos), replies.newVideoId);
        var deleted := inserted && replies.deleteOk;
        && decision == (if !fetched then FetchFailed else if !inserted then InsertFailed
                        else if !deleted then DeleteFailed else Approved(replies.newVideoId))
        && db.videos == (if inserted
                         then old(db.videos)[replies.newVideoId := ApprovedCopy(old(db.videosForApproval)[videoId])]
                         else old(db.videos))
        && db.videosForApproval == (if deleted then old(db.videosForApproval) - {videoId}
                                    else old(db.videosForApproval))
        && pendingVideos == (if deleted then WithoutVideo(old(pendingVideos), videoId)
                             else old(pendingVideos))
      ensures db.thumbnails == old(db.thumbnails) && db.videoViews == old(db.videoViews)
      ensures db.follows == old(db.follows)
    {
      // `.single()` answers with an error unless exactly the one row is there.
      if !(replies.fetchOk && videoId in db.videosForApproval) {
        return FetchFailed;
      }
      var row := db.videosForApproval[videoId];
      if !InsertSucceeds(replies.insertOk, db.videos, replies.newVideoId) {
        return InsertFailed;
      }
      db.videos := db.videos[replies.newVideoId := ApprovedCopy(row)];
      if !replies.deleteOk {
        return DeleteFailed;
      }
      db.videosForApproval := db.videosForApproval - {videoId};
      pendingVideos := WithoutVideo(pendingVideos, videoId);
      decision := Approved(replies.newVideoId);
    }

    /** `handleDeclineVideo`: delete the pending row and, if that worked, drop
        its card. Nothing is ever inserted into `videos`. */
    method DeclineVideo(videoId: string, db: Database, deleteOk: bool)
      returns (decision: Decision)
      modifies this, db
      ensures processingVideos == WithoutId(old(processingVideos), videoId)
      ensures decision == if deleteOk then Declined else DeclineFailed
      ensures db.videosForApproval == if deleteOk then old(db.videosForApproval) - {videoId}
                                      else old(db.videosForApproval)
      ensures pendingVideos == if deleteOk then WithoutVideo(old(pendingVideos), videoId)
                               else old(pendingVideos)
      ensures db.videos == old(db.videos) && db.thumbnails == old(db.thumbnails)
      ensures db.videoViews == old(db.videoViews) && db.follows == old(db.follows)
      ensures loading == old(loading)
    {
      processingVideos := processingVideos + [videoId];
      decision := DeclineSteps(videoId, db, deleteOk);
      processingVideos := WithoutId(processingVideos, videoId);
      WithoutIdAppend(old(processingVideos), videoId);
    }

    /** The body of the `try` block of `handleDeclineVideo`, run while the
        card's buttons are disabled; they stay disabled throughout. */
    method DeclineSteps(videoId: string, db: Database, deleteOk: bool) returns (decision: Decision)
      requires ButtonsDisabled(videoId)
      modifies this`pendingVideos, db
      ensures ButtonsDisabled(videoId)
      ensures decision == if deleteOk then Declined else DeclineFailed
      ensures db.videosForApproval == if deleteOk then old(db.videosForApproval) - {videoId}
                                      else old(db.videosForApproval)
      ensures pendingVideos == if deleteOk then WithoutVideo(old(pendingVideos), videoId)
                               else old(pendingVideos)
      ensures db.videos == old(db.videos) && db.thumbnails == old(db.thumbnails)
      ensures db.videoViews == old(db.videoViews) && db.follows == old(db.follows)
    {
      if deleteOk {
        db.videosForApproval := db.videosForApproval - {videoId};
        pendingVideos := WithoutVideo(pendingVideos, videoId);
        decision := Declined;
      } else {
        decision := DeclineFailed;
      }
    }
  }

  /** Marking an id and then unmarking it leaves only the other ids. */
  lemma {:induction false} WithoutIdAppend(ids: seq<string>, id: string)
    ensures WithoutId(ids + [id], id) == WithoutId(ids, id)
  {
    if ids == [] {
      assert [] + [id] == [id];
    } else {
      assert (ids + [id])[1..] == ids[1..] + [id];
      WithoutIdAppend(ids[1..], id);
    }
  }

  /** When exactly one card has the id, removing it leaves the cards before
      it followed by the cards after it. */
  lemma WithoutVideoRemovesOne(before: seq<PendingVideo>, v: PendingVideo, after: seq<PendingVideo>, id: string)
    requires v.id == id
    requires forall k :: 0 <= k < |before| ==> before[k].id != id
    requires forall k :: 0 <= k < |after| ==> after[k].id != id
    ensures WithoutVideo(before + [v] + after, id) == before + after
  {
    WithoutVideoAppend(before + [v], after, id);
    WithoutVideoAppend(before, [v], id);
    WithoutVideoAbsent(before, id);
    WithoutVideoAbsent(after, id);
    assert WithoutVideo([v], id) == [];
  }

  /** Every card with another id survives the removal. */
  lemma {:induction false} WithoutVideoKeepsOthers(vs: seq<PendingVideo>, id: string, k: nat)
    requires k < |vs| && vs[k].id != id
    ensures vs[k] in WithoutVideo(vs, id)
  {
    if k == 0 {
      assert WithoutVideo(vs, id) == [vs[0]] + WithoutVideo(vs[1..], id);
    } else {
      WithoutVideoKeepsOthers(vs[1..], id, k - 1);
    }
  }
}

=== FILE: auth.dfy ===
/** The demo sign-in store: accounts, the session token and the signed-in
    user all live in `localStorage`. Passwords are never checked; one fixed
    e-mail address is the administrator. */
module Auth {
  import opened Common

  datatype User = User(id: string, email: string, name: string, avatar: Option<string>,
                       description: Option<string>, isAdmin: bool)

  /** A partial user handed to `updateProfile`: a `Some` field replaces the
      current one. */
  datatype ProfileUpdate = ProfileUpdate(id: Option<string>, email: Option<string>, name: Option<string>,
                                         avatar: Option<Option<string>>, description: Option<Option<string>>,
                                         isAdmin: Option<bool>)

  const AdminEmail: string := "hkhero50@gmail.com"
  const AdminName: string := "Harez Uddin Hero"
  const AdminAvatar: string := "/teacher-avatar.jpg"
  const TokenPrefix: string := "demo-token-"

  /** `email.split('@')[0]`: the text before the first '@', or all of it
      when there is none. */
  function EmailPrefix(email: string): (p: string)
    ensures p <= email
    ensures '@' !in p
    ensures |p| < |email| ==> email[|p|] == '@'
  {
    if email == [] || email[0] == '@' then []
    else [email[0]] + EmailPrefix(email[1..])
  }

  /** The prefix of `name@domain` is `name` whenever `name` has no '@'. */
  lemma {:induction false} EmailPrefixOfAddress(name: string, domain: string)
    requires '@' !in name
    ensures EmailPrefix(name + "@" + domain) == name
  {
    if name != [] {
      assert (name + "@" + domain)[1..] == name[1..] + "@" + domain;
      EmailPrefixOfAddress(name[1..], domain);
    }
  }

  /** The record `login` and `signup` build at time `now`: the administrator
      address gets the fixed name and avatar, every other address the given
      name and no avatar. */
  function AccountRecord(email: string, name: string, now: int): (u: User)
    ensures u.isAdmin <==> email == AdminEmail
    ensures u.email == email
    ensures u.name == if u.isAdmin then AdminName else name
    ensures u.avatar.Some? <==> u.isAdmin
    ensures u.avatar.Some? ==> u.avatar.value == AdminAvatar
    ensures u.description.None?
    ensures ParseInt(u.id) == Some(now)
  {
    IntToStringRoundTrip(now);
    var isAdmin := email == AdminEmail;
    User(IntToString(now), email, if isAdmin then AdminName else name,
         if isAdmin then Some(AdminAvatar) else None, None, isAdmin)
  }

  /** The session token written at time `now`; it is never empty, so a
      later start-up reads it as present. */
  function TokenAt(now: int): (t: string)
    ensures |t| > |TokenPrefix| && t[..|TokenPrefix|] == TokenPrefix
    ensures ParseInt(t[|TokenPrefix|..]) == Some(now)
  {
    IntToStringRoundTrip(now);
    TokenPrefix + IntToString(now)
  }

  /** `{ ...user, ...updates }`. */
  function Merge(u: User, up: ProfileUpdate): (r: User)
    ensures up == ProfileUpdate(None, None, None, None, None, None) ==> r == u
    ensures up.name.Some? ==> r.name == up.name.value
    ensures up.name.None? ==> r.name == u.name
    ensures up.email.Some? ==> r.email == up.email.value
    ensures up.email.None? ==> r.email == u.email
    ensures up.id.Some? ==> r.id == up.id.value
    ensures up.id.None? ==> r.id == u.id
    ensures up.avatar.Some? ==> r.avatar == up.avatar.value
    ensures up.avatar.None? ==> r.avatar == u.avatar
    ensures up.description.Some? ==> r.description == up.description.value
    ensures up.description.None? ==> r.description == u.description
    ensures up.isAdmin.Some? ==> r.isAdmin == up.isAdmin.value
    ensures up.isAdmin.None? ==> r.isAdmin == u.isAdmin
  {
    User(if up.id.Some? then up.id.value else u.id,
         if up.email.Some? then up.email.value else u.email,
         if up.name.Some? then up.name.value else u.name,
         if up.avatar.Some? then up.avatar.value else u.avatar,
         if up.description.Some? then up.description.value else u.description,
         if up.isAdmin.Some? then up.isAdmin.value else u.isAdmin)
  }

  /** Applying the same update twice is applying it once. */
  lemma MergeIdempotent(u: User, up: ProfileUpdate)
    ensures Merge(Merge(u, up), up) == Merge(u, up)
  {
  }

  /** The provider. `authToken` and `userData` are the two session keys of
      `localStorage`; `accounts` holds the `user_<email>` keys, by e-mail. */
  class AuthProvider {
    var user: Option<User>
    var isLoading: bool
    var authToken: Option<string>
    var userData: Option<User>
    var accounts: map<string, User>

    constructor (savedToken: Option<string>, savedUser: Option<User>, savedAccounts: map<string, User>)
      ensures user.None? && isLoading
      ensures authToken == savedToken && userData == savedUser && accounts == savedAccounts
    {
      user, isLoading := None, true;
      authToken, userData, accounts := savedToken, savedUser, savedAccounts;
    }

    /** The start-up effect and `fetchUserData`. With no token (or an empty
        one) nothing is restored. With a token, a stored user that parses
        becomes the signed-in user; one that does not parse makes both
        session keys go. Loading ends either way. */
    method Restore(userDataParses: bool)
      modifies this`user, this`isLoading, this`authToken, this`userData
      ensures !isLoading
      ensures old(authToken).None? || old(authToken) == Some("") ==>
        user == old(user) && authToken == old(authToken) && userData == old(userData)
      ensures old(authToken).Some? && old(authToken) != Some("") ==>
        if old(userData).Some? && !userDataParses
        then user == old(user) && authToken.None? && userData.None?
        else user == (if old(userData).Some? then old(userData) else old(user))
             && authToken == old(authToken) && userData == old(userData)
    {
      if authToken.None? || authToken == Some("") {
        isLoading := false;
        return;
      }
      if userData.Some? {
        if userDataParses {
          user := userData;
        } else {
          authToken, userData := None, None;
        }
      }
      isLoading := false;
    }

    /** `login` at time `now`: the password is ignored; the new record is
        stored as `userData` and signed in, a fresh token is stored, and the
        answer is true. Stored accounts are not consulted. */
    method Login(email: string, password: string, now: int) returns (ok: bool)
      modifies this`user, this`isLoading, this`authToken, this`userData
      ensures ok && !isLoading
      ensures user == Some(AccountRecord(email, EmailPrefix(email), now))
      ensures userData == user && authToken == Some(TokenAt(now))
    {
      isLoading := true;
      var record := AccountRecord(email, EmailPrefix(email), now);
      authToken := Some(TokenAt(now));
      userData := Some(record);
      user := Some(record);
      ok := true;
      isLoading := false;
    }

    /** `signup` at time `now`: an e-mail that already has an account is
        refused with nothing stored; otherwise the record is stored as
        `userData` and under its e-mail, and signed in. */
    method Signup(email: string, password: string, name: string, now: int) returns (ok: bool)
      modifies this`user, this`isLoading, this`authToken, this`userData, this`accounts
      ensures !isLoading
      ensures ok <==> email !in old(accounts)
      ensures !ok ==> user == old(user) && authToken == old(authToken) && userData == old(userData)
                      && accounts == old(accounts)
      ensures ok ==> var record := AccountRecord(email, name, now);
        && user == Some(record) && userData == Some(record)
        && accounts == old(accounts)[email := record]
        && authToken == Some(TokenAt(now))
    {
      isLoading := true;
      if email in accounts {
        ok := false;
        isLoading := false;
        return;
      }
      var record := AccountRecord(email, name, now);
      authToken := Some(TokenAt(now));
      userData := Some(record);
      accounts := accounts[email := record];
      user := Some(record);
      ok := true;
      isLoading := false;
    }

    /** `logout`: both session keys go and nobody is signed in; accounts
        stay. */
    method Logout()
      modifies this`user, this`authToken, this`userData
      ensures user.None? && authToken.None? && userData.None?
    {
      authToken, userData, user := None, None, None;
    }

    /** `updateProfile`: nothing without a signed-in user; otherwise the
        merged record is signed in and stored as `userData`. */
    method UpdateProfile(up: ProfileUpdate)
      modifies this`user, this`userData
      ensures old(user).None? ==> user == old(user) && userData == old(userData)
      ensures old(user).Some? ==> user == Some(Merge(old(user).value, up)) && userData == user
    {
      if user.None? {
        return;
      }
      var updated := Merge(user.value, up);
      user := Some(updated);
      userData := Some(updated);
    }
  }

  /** A non-administrator who signs in as `name@domain` is shown as `name`. */
  lemma LoginNameIsMailbox(name: string, domain: string, now: int)
    requires '@' !in name && name + "@" + domain != AdminEmail
    ensures AccountRecord(name + "@" + domain, EmailPrefix(name + "@" + domain), now).name == name
  {
    EmailPrefixOfAddress(name, domain);
  }
}

=== FILE: comments.dfy ===
/** The comment list under a video: top-level comments newest first, each
    with its replies oldest first, and like toggles on either level. The list
    lives only in the page's state. */
module Comments {
  import opened Common
  import opened Notifications

  /** The signed-in profile, as this component reads it. */
  datatype Profile = Profile(id: string, name: string, avatar: Option<string>)

  datatype Author = Author(id: string, name: string, avatar: Option<string>)

  /** A comment; `liked` starts out unset, which reads as false. Only two
      levels are ever built: replies carry no replies of their own. */
  datatype Comment = Comment(id: string, content: string, author: Author, likes: int,
                             replies: seq<Comment>, createdAt: int, liked: bool)

  /** The comment or reply a submit builds at time `now`. */
  function NewComment(content: string, profile: Profile, now: int): (c: Comment)
    ensures c.content == content && c.likes == 0 && c.replies == [] && !c.liked && c.createdAt == now
    ensures c.author == Author(profile.id, profile.name, profile.avatar)
    ensures ParseInt(c.id) == Some(now)
  {
    IntToStringRoundTrip(now);
    Comment(IntToString(now), content, Author(profile.id, profile.name, profile.avatar), 0, [], now, false)
  }

  /** One click on a heart: the flag flips and the count follows it. */
  function ToggleLike(c: Comment): (r: Comment)
    ensures r.liked == !c.liked
    ensures r.likes == c.likes + (if r.liked then 1 else -1)
    ensures r.(liked := c.liked, likes := c.likes) == c
  {
    c.(liked := !c.liked, likes := if c.liked then c.likes - 1 else c.likes + 1)
  }

  /** Two clicks restore the comment. */
  lemma ToggleLikeTwice(c: Comment)
    ensures ToggleLike(ToggleLike(c)) == c
  {
  }

  /** Every comment in `cs` with id `id` toggled, the rest untouched. */
  function LikeWhere(cs: seq<Comment>, id: string): (r: seq<Comment>)
    ensures |r| == |cs|
    ensures forall i :: 0 <= i < |cs| ==> r[i] == if cs[i].id == id then ToggleLike(cs[i]) else cs[i]
  {
    if cs == [] then [] else [if cs[0].id == id then ToggleLike(cs[0]) else cs[0]] + LikeWhere(cs[1..], id)
  }

  /** Liking the same id twice restores the whole list. */
  lemma {:induction false} LikeWhereTwice(cs: seq<Comment>, id: string)
    ensures LikeWhere(LikeWhere(cs, id), id) == cs
  {
    if cs != [] {
      LikeWhereTwice(cs[1..], id);
      ToggleLikeTwice(cs[0]);
      assert LikeWhere(cs, id)[1..] == LikeWhere(cs[1..], id);
    }
  }

  /** The reply-like update: under every comment with id `parentId`, the
      replies with id `replyId` toggled; other comments untouched. */
  function LikeReply(cs: seq<Comment>, parentId: string, replyId: string): (r: seq<Comment>)
    ensures |r| == |cs|
    ensures forall i :: 0 <= i < |cs| ==>
      r[i] == if cs[i].id == parentId then cs[i].(replies := LikeWhere(cs[i].replies, replyId)) else cs[i]
  {
    if cs == [] then []
    else [if cs[0].id == parentId then cs[0].(replies := LikeWhere(cs[0].replies, replyId)) else cs[0]]
         + LikeReply(cs[1..], parentId, replyId)
  }

  /** Liking the same reply twice restores the whole list. */
  lemma {:induction false} LikeReplyTwice(cs: seq<Comment>, parentId: string, replyId: string)
    ensures LikeReply(LikeReply(cs, parentId, replyId), parentId, replyId) == cs
  {
    if cs != [] {
      LikeReplyTwice(cs[1..], parentId, replyId);
      LikeWhereTwice(cs[0].replies, replyId);
      assert LikeReply(cs, parentId, replyId)[1..] == LikeReply(cs[1..], parentId, replyId);
    }
  }

  /** The reply-submit update: `reply` appended to the replies of every
      comment with id `parentId`; other comments untouched. */
  function AddReply(cs: seq<Comment>, parentId: string, reply: Comment): (r: seq<Comment>)
    ensures |r| == |cs|
    ensures forall i :: 0 <= i < |cs| ==>
      r[i] == if cs[i].id == parentId then cs[i].(replies := cs[i].replies + [reply]) else cs[i]
  {
    if cs == [] then []
    else [if cs[0].id == parentId then cs[0].(replies := cs[0].replies + [reply]) else cs[0]]
         + AddReply(cs[1..], parentId, reply)
  }

  /** With no comment carrying `parentId`, a reply changes nothing. */
  lemma AddReplyWithoutParent(cs: seq<Comment>, parentId: string, reply: Comment)
    requires forall i :: 0 <= i < |cs| ==> cs[i].id != parentId
    ensures AddReply(cs, parentId, reply) == cs
  {
  }

  /** The number of comments with id `id`. */
  function Matches(cs: seq<Comment>, id: string): (n: nat)
    ensures n <= |cs|
    ensures n == 0 <==> forall i :: 0 <= i < |cs| ==> cs[i].id != id
  {
    if cs == [] then 0 else (if cs[0].id == id then 1 else 0) + Matches(cs[1..], id)
  }

  /** The number of replies across all top-level comments. */
  function ReplyTotal(cs: seq<Comment>): (n: nat)
    ensures cs == [] ==> n == 0
  {
    if cs == [] then 0 else |cs[0].replies| + ReplyTotal(cs[1..])
  }

  /** A reply adds one reply per matching parent, so exactly one when the
      parent id is unique. */
  lemma {:induction false} AddReplyCountsOnePerParent(cs: seq<Comment>, parentId: string, reply: Comment)
    ensures ReplyTotal(AddReply(cs, parentId, reply)) == ReplyTotal(cs) + Matches(cs, parentId)
  {
    if cs != [] {
      AddReplyCountsOnePerParent(cs[1..], parentId, reply);
      assert AddReply(cs, parentId, reply)[1..] == AddReply(cs[1..], parentId, reply);
    }
  }

  /** The like updates never change the number of replies. */
  lemma {:induction false} LikeReplyKeepsReplyTotal(cs: seq<Comment>, parentId: string, replyId: string)
    ensures ReplyTotal(LikeReply(cs, parentId, replyId)) == ReplyTotal(cs)
    ensures ReplyTotal(LikeWhere(cs, replyId)) == ReplyTotal(cs)
  {
    if cs != [] {
      LikeReplyKeepsReplyTotal(cs[1..], parentId, replyId);
      assert LikeReply(cs, parentId, replyId)[1..] == LikeReply(cs[1..], parentId, replyId);
      assert LikeWhere(cs, replyId)[1..] == LikeWhere(cs[1..], replyId);
    }
  }

  /** The notice a top-level comment sends, in the notification list's
      shape. */
  function CommentNotice(profile: Profile): (d: Draft)
    ensures d.kind == "comment" && !d.read
    ensures d.message == profile.name + " commented on a video"
    ensures |profile.name| < |d.message| && d.message[..|profile.name|] == profile.name
  {
    Draft("comment", profile.name + " commented on a video", false)
  }

  class CommentSection {
    var comments: seq<Comment>
    var newComment: string
    var replyingTo: Option<string>
    var replyContent: string

    /** The component as mounted: `loadComments` leaves the list empty. */
    constructor ()
      ensures comments == [] && newComment == "" && replyingTo.None? && replyContent == ""
    {
      comments, newComment, replyingTo, replyContent := [], "", None, "";
    }

    /** `handleCommentSubmit` at time `now`: a blank input or no profile
        changes nothing; otherwise the new comment goes first, the input is
        cleared and one `comment` notice is returned. */
    method SubmitComment(profile: Option<Profile>, now: int) returns (notice: Option<Draft>)
      modifies this`comments, this`newComment
      ensures IsBlank(old(newComment)) || profile.None? ==>
        comments == old(comments) && newComment == old(newComment) && notice.None?
      ensures !IsBlank(old(newComment)) && profile.Some? ==>
        && comments == [NewComment(old(newComment), profile.value, now)] + old(comments)
        && newComment == ""
        && notice == Some(CommentNotice(profile.value))
    {
      if IsBlank(newComment) || profile.None? {
        return None;
      }
      comments := [NewComment(newComment, profile.value, now)] + comments;
      newComment := "";
      notice := Some(CommentNotice(profile.value));
    }

    /** `handleReplySubmit(parentId)` at time `now`: a blank reply or no
        profile changes nothing; otherwise the reply is appended under the
        parent, the reply input is cleared and the reply box closed. No
        notice is sent. */
    method SubmitReply(parentId: string, profile: Option<Profile>, now: int)
      modifies this`comments, this`replyContent, this`replyingTo
      ensures IsBlank(old(replyContent)) || profile.None? ==>
        comments == old(comments) && replyContent == old(replyContent) && replyingTo == old(replyingTo)
      ensures !IsBlank(old(replyContent)) && profile.Some? ==>
        && comments == AddReply(old(comments), parentId, NewComment(old(replyContent), profile.value, now))
        && replyContent == "" && replyingTo.None?
    {
      if IsBlank(replyContent) || profile.None? {
        return;
      }
      comments := AddReply(comments, parentId, NewComment(replyContent, profile.value, now));
      replyContent, replyingTo := "", None;
    }

    /** `handleLike(commentId, isReply, parentId)`: a reply like with a
        non-empty parent id toggles that reply under that parent; anything
        else toggles the top-level comment with id `commentId`. */
    method HandleLike(commentId: string, isReply: bool, parentId: Option<string>)
      modifies this`comments
      ensures isReply && parentId.Some? && parentId.value != "" ==>
        comments == LikeReply(old(comments), parentId.value, commentId)
      ensures !(isReply && parentId.Some? && parentId.value != "") ==>
        comments == LikeWhere(old(comments), commentId)
    {
      if isReply && parentId.Some? && parentId.value != "" {
        comments := LikeReply(comments, parentId.value, commentId);
      } else {
        comments := LikeWhere(comments, commentId);
      }
    }
  }
}

=== FILE: common.dfy ===
/** Small pieces shared by every module: an Option type, the whitespace that
    JavaScript's `String.prototype.trim` removes, and decimal rendering of
    integers as `Number.prototype.toString` produces it for whole numbers. */
module Common {

  datatype Option<T> = None | Some(value: T)

  /** The characters `trim()` strips: WhiteSpace and LineTerminator of the
      ECMAScript grammar. */
  predicate IsSpace(c: char)
  {
    c == ' ' || c == '\t' || c == '\n' || c == '\r' || c == '\U{000B}' || c == '\U{000C}'
    || c == '\U{00A0}' || c == '\U{1680}' || ('\U{2000}' <= c <= '\U{200A}')
    || c == '\U{2028}' || c == '\U{2029}' || c == '\U{202F}' || c == '\U{205F}'
    || c == '\U{3000}' || c == '\U{FEFF}'
  }

  predicate AllSpace(s: string)
  {
    forall k :: 0 <= k < |s| ==> IsSpace(s[k])
  }

  /** Number of whitespace characters at the front of `s`. */
  function LeadingSpaces(s: string): (n: nat)
    ensures n <= |s|
    ensures forall k :: 0 <= k < n ==> IsSpace(s[k])
    ensures n < |s| ==> !IsSpace(s[n])
  {
    if |s| == 0 || !IsSpace(s[0]) then 0 else 1 + LeadingSpaces(s[1..])
  }

  /** Number of whitespace characters at the end of `s`. */
  function TrailingSpaces(s: string): (n: nat)
    ensures n <= |s|
    ensures forall k :: |s| - n <= k < |s| ==> IsSpace(s[k])
    ensures n < |s| ==> !IsSpace(s[|s| - 1 - n])
  {
    if |s| == 0 || !IsSpace(s[|s| - 1]) then 0 else 1 + TrailingSpaces(s[..|s| - 1])
  }

  /** `s.trim()`: the factor of `s` left after dropping whitespace at both ends. */
  function Trim(s: string): (r: string)
    ensures |r| <= |s|
    ensures LeadingSpaces(s) + |r| <= |s| && r == s[LeadingSpaces(s)..LeadingSpaces(s) + |r|]
    ensures forall k :: LeadingSpaces(s) + |r| <= k < |s| ==> IsSpace(s[k])
    ensures r != [] ==> !IsSpace(r[0]) && !IsSpace(r[|r| - 1])
    ensures r == [] <==> AllSpace(s)
  {
    var front := s[LeadingSpaces(s)..];
    var r := front[..|front| - TrailingSpaces(front)];
    assert r != [] ==> r[|r| - 1] == front[|front| - 1 - TrailingSpaces(front)];
    r
  }

  /** JavaScript truthiness of `s.trim()`: true when something other than
      whitespace is present. */
  predicate IsBlank(s: string)
  {
    Trim(s) == []
  }

  /** Trimming twice is trimming once. */
  lemma TrimIdempotent(s: string)
    ensures Trim(Trim(s)) == Trim(s)
  {
    var r := Trim(s);
    if r != [] {
      assert LeadingSpaces(r) == 0;
      assert TrailingSpaces(r[LeadingSpaces(r)..]) == 0;
    }
  }

  // ---------------------------------------------------------------------
  // Decimal rendering and its inverse

  function DigitChar(d: nat): (c: char)
    requires d < 10
    ensures '0' <= c <= '9'
  {
    ['0', '1', '2', '3', '4', '5', '6', '7', '8', '9'][d]
  }

  function DigitValue(c: char): (d: nat)
    requires '0' <= c <= '9'
    ensures d < 10 && DigitChar(d) == c
  {
    (c as int - '0' as int) as nat
  }

  predicate AllDigits(s: string)
  {
    forall k :: 0 <= k < |s| ==> '0' <= s[k] <= '9'
  }

  /** Decimal digits of `n`, most significant first, without leading zeros. */
  function NatToString(n: nat): (s: string)
    ensures |s| >= 1 && AllDigits(s)
    ensures |s| > 1 ==> s[0] != '0'
  {
    if n < 10 then [DigitChar(n)] else NatToString(n / 10) + [DigitChar(n % 10)]
  }

  /** `n.toString()` for a whole number `n`. */
  function IntToString(n: int): (s: string)
    ensures |s| >= 1
  {
    if n < 0 then "-" + NatToString(-n) else NatToString(n)
  }

  /** The value of a non-empty string of decimal digits. */
  function DigitsValue(s: string): nat
    requires AllDigits(s)
  {
    if s == [] then 0 else 10 * DigitsValue(s[..|s| - 1]) + DigitValue(s[|s| - 1])
  }

  /** Reads a non-empty run of decimal digits. */
  function ParseNat(s: string): (r: Option<nat>)
    ensures r.Some? <==> |s| >= 1 && AllDigits(s)
  {
    if |s| >= 1 && AllDigits(s) then Some(DigitsValue(s)) else None
  }

  /** Reads back what `IntToString` writes: an optional minus sign and digits. */
  function ParseInt(s: string): Option<int>
  {
    if |s| >= 2 && s[0] == '-' then
      match ParseNat(s[1..])
      case Some(v) => Some(0 - v)
      case None => None
    else
      match ParseNat(s)
      case Some(v) => Some(v as int)
      case None => None
  }

  lemma {:induction false} NatToStringValue(n: nat)
    ensures DigitsValue(NatToString(n)) == n
  {
    var s := NatToString(n);
    if n < 10 {
      assert s[..|s| - 1] == [];
    } else {
      NatToStringValue(n / 10);
      assert s == NatToString(n / 10) + [DigitChar(n % 10)];
      assert s[..|s| - 1] == NatToString(n / 10);
      assert s[|s| - 1] == DigitChar(n % 10);
    }
  }

  /** Rendering a whole number in decimal loses nothing. */
  lemma IntToStringRoundTrip(n: int)
    ensures ParseInt(IntToString(n)) == Some(n)
  {
    if n < 0 {
      var d := NatToString(-n);
      NatToStringValue(-n);
      assert ParseNat(d) == Some(-n);
      assert ("-" + d)[1..] == d;
    } else {
      var d := NatToString(n);
      NatToStringValue(n);
      assert ParseNat(d) == Some(n);
      assert d[0] != '-';
    }
  }

  /** Different whole numbers render differently. */
  lemma IntToStringInjective(a: int, b: int)
    requires IntToString(a) == IntToString(b)
    ensures a == b
  {
    IntToStringRoundTrip(a);
    IntToStringRoundTrip(b);
  }
}

=== FILE: follow_system.dfy ===
/** Following a creator from their profile: whether the signed-in profile
    follows the target, how many followers the target has, and the toggle
    that writes or removes the `follows` row and keeps a local counter. */
module FollowSystem {
  import opened Common
  import opened Tables

  /** The signed-in profile, as this hook reads it. */
  datatype Profile = Profile(id: string, name: string)

  /** The object handed to `addNotification` on a follow, in the shape this
      hook uses (the columns of the `notifications` table). */
  datatype FollowNotice = FollowNotice(userId: string, kind: string, title: string, content: string)

  /** `!targetUserId`: no target, or an empty one. */
  predicate NoTarget(target: Option<string>)
  {
    target.None? || target.value == ""
  }

  /** The notice sent to the followed account. */
  function FollowNoticeFor(target: string, follower: Profile): (n: FollowNotice)
    ensures n.userId == target && n.kind == "follow" && n.title == "New Follower"
    ensures n.content == follower.name + " started following you"
    ensures |follower.name| < |n.content| && n.content[..|follower.name|] == follower.name
  {
    FollowNotice(target, "follow", "New Follower", follower.name + " started following you")
  }

  class FollowState {
    const targetUserId: Option<string>
    var isFollowing: bool
    var followerCount: int
    var isLoading: bool

    constructor (target: Option<string>)
      ensures targetUserId == target && !isFollowing && followerCount == 0 && !isLoading
    {
      targetUserId := target;
      isFollowing, followerCount, isLoading := false, 0, false;
    }

    /** `checkFollowStatus`. `.single()` answers with data only when exactly
        one row matches, so duplicate rows read as "not following"; a failed
        query reads as "not following" too. */
    method CheckFollowStatus(profile: Option<Profile>, db: Database, queryOk: bool)
      modifies this`isFollowing
      ensures profile.None? || NoTarget(targetUserId) ==> isFollowing == old(isFollowing)
      ensures profile.Some? && !NoTarget(targetUserId) ==>
        isFollowing == (queryOk && |FollowIdsFor(db.follows, profile.value.id, targetUserId.value)| == 1)
    {
      if profile.None? || NoTarget(targetUserId) {
        return;
      }
      isFollowing := queryOk && |FollowIdsFor(db.follows, profile.value.id, targetUserId.value)| == 1;
    }

    /** `loadFollowerCount`: the number of rows following the target; a failed
        query keeps the old count. */
    method LoadFollowerCount(db: Database, queryOk: bool)
      modifies this`followerCount
      ensures NoTarget(targetUserId) || !queryOk ==> followerCount == old(followerCount)
      ensures !NoTarget(targetUserId) && queryOk ==> followerCount == |FollowIdsTo(db.follows, targetUserId.value)|
    {
      if NoTarget(targetUserId) {
        return;
      }
      if queryOk {
        followerCount := |FollowIdsTo(db.follows, targetUserId.value)|;
      }
    }

    /** `toggleFollow`. Nothing happens without a profile or a target, or
        while a toggle is in progress. Otherwise a followed target is
        unfollowed (every matching row deleted, counter down by one) and any
        other target followed (one row inserted, counter up by one, and a
        notice for the target). A failed write changes no state. No
        self-follow check is made. */
    method ToggleFollow(profile: Option<Profile>, db: Database, writeOk: bool, newRowId: string)
      returns (notice: Option<FollowNotice>)
      modifies this`isFollowing, this`followerCount, this`isLoading, db`follows
      ensures var skip := profile.None? || NoTarget(targetUserId) || old(isLoading);
        skip ==> && notice.None? && isFollowing == old(isFollowing) && followerCount == old(followerCount)
                 && isLoading == old(isLoading) && db.follows == old(db.follows)
      ensures !(profile.None? || NoTarget(targetUserId) || old(isLoading)) ==>
        var me := profile.value.id;
        var them := targetUserId.value;
        var done := if old(isFollowing) then writeOk else InsertSucceeds(writeOk, old(db.follows), newRowId);
        && !isLoading
        && isFollowing == (if done then !old(isFollowing) else old(isFollowing))
        && followerCount == (if !done then old(followerCount)
                             else if old(isFollowing) then old(followerCount) - 1
                             else old(followerCount) + 1)
        && db.follows == (if !done then old(db.follows)
                          else if old(isFollowing) then DeleteFollows(old(db.follows), me, them)
                          else old(db.follows)[newRowId := FollowRow(me, them)])
        && notice == (if done && !old(isFollowing) then Some(FollowNoticeFor(them, profile.value)) else None)
    {
      notice := None;
      if profile.None? || NoTarget(targetUserId) || isLoading {
        return;
      }
      isLoading := true;
      var me, them := profile.value.id, targetUserId.value;
      if isFollowing {
        if writeOk {
          db.follows := DeleteFollows(db.follows, me, them);
          isFollowing := false;
          followerCount := followerCount - 1;
        }
      } else {
        if InsertSucceeds(writeOk, db.follows, newRowId) {
          db.follows := db.follows[newRowId := FollowRow(me, them)];
          isFollowing := true;
          followerCount := followerCount + 1;
          notice := Some(FollowNoticeFor(them, profile.value));
        }
      }
      isLoading := false;
    }
  }

  /** A follow adds exactly one row to the target's followers, so a counter
      that matched the table still matches after `followerCount + 1`. */
  lemma FollowAddsOneFollower(follows: map<string, FollowRow>, me: string, them: string, newId: string)
    requires newId !in follows
    ensures |FollowIdsTo(follows[newId := FollowRow(me, them)], them)| == |FollowIdsTo(follows, them)| + 1
  {
    assert FollowIdsTo(follows[newId := FollowRow(me, them)], them) == FollowIdsTo(follows, them) + {newId};
  }

  /** An unfollow removes every matching row: when there was exactly one, a
      counter that matched the table still matches after `followerCount - 1`. */
  lemma UnfollowRemovesOneFollower(follows: map<string, FollowRow>, me: string, them: string)
    requires |FollowIdsFor(follows, me, them)| == 1
    ensures |FollowIdsTo(DeleteFollows(follows, me, them), them)| == |FollowIdsTo(follows, them)| - 1
  {
    var gone := FollowIdsFor(follows, me, them);
    assert FollowIdsTo(DeleteFollows(follows, me, them), them) == FollowIdsTo(follows, them) - gone;
    assert gone <= FollowIdsTo(follows, them);
  }

  /** When the local flag says "following" but no row exists, the unfollow
      deletes nothing while the local counter still drops by one: the counter
      then undercounts the table. */
  lemma UnfollowWithoutRowLeavesTableCount(follows: map<string, FollowRow>, me: string, them: string, counter: int)
    requires FollowIdsFor(follows, me, them) == {}
    requires counter == |FollowIdsTo(follows, them)|
    ensures DeleteFollows(follows, me, them) == follows
    ensures counter - 1 != |FollowIdsTo(DeleteFollows(follows, me, them), them)|
  {
    assert DeleteFollows(follows, me, them) == follows;
  }
}

=== FILE: notifications.dfy ===
/** The in-browser notification list: newest first, each entry read or
    unread, saved to `localStorage` under `notifications_<user id>` whenever
    a user is signed in. */
module Notifications {
  import opened Common

  /** One entry; `kind` is one of "like", "comment", "upload_review",
      "follow", and `createdAt` is a millisecond timestamp. */
  datatype Notification = Notification(id: string, kind: string, message: string, read: bool, createdAt: int)

  /** What a caller hands to `addNotification`: everything but the id and
      the timestamp. */
  datatype Draft = Draft(kind: string, message: string, read: bool)

  /** The number of unread entries (`filter(n => !n.read).length`). */
  function UnreadCount(ns: seq<Notification>): (c: nat)
    ensures c <= |ns|
    ensures c == 0 <==> forall i :: 0 <= i < |ns| ==> ns[i].read
    ensures c == |ns| <==> forall i :: 0 <= i < |ns| ==> !ns[i].read
  {
    if ns == [] then 0
    else (if ns[0].read then 0 else 1) + UnreadCount(ns[1..])
  }

  /** The entry `addNotification` builds from a draft at time `now`: its id
      is the decimal text of the timestamp. */
  function Stamp(d: Draft, now: int): (n: Notification)
    ensures n.kind == d.kind && n.message == d.message && n.read == d.read
    ensures n.createdAt == now && ParseInt(n.id) == Some(now)
  {
    IntToStringRoundTrip(now);
    Notification(IntToString(now), d.kind, d.message, d.read, now)
  }

  /** `markAsRead(id)`'s new list: entries with that id become read, all
      others stay as they are, in the same order. */
  function MarkRead(ns: seq<Notification>, id: string): (r: seq<Notification>)
    ensures |r| == |ns|
    ensures forall i :: 0 <= i < |ns| ==> r[i] == if ns[i].id == id then ns[i].(read := true) else ns[i]
  {
    if ns == [] then []
    else [if ns[0].id == id then ns[0].(read := true) else ns[0]] + MarkRead(ns[1..], id)
  }

  /** `markAllAsRead`'s new list: every entry read, nothing else changed. */
  function MarkAllRead(ns: seq<Notification>): (r: seq<Notification>)
    ensures |r| == |ns|
    ensures forall i :: 0 <= i < |ns| ==> r[i] == ns[i].(read := true)
  {
    if ns == [] then [] else [ns[0].(read := true)] + MarkAllRead(ns[1..])
  }

  /** A new entry adds one to the unread count exactly when it is unread. */
  lemma AddChangesUnreadByOne(n: Notification, ns: seq<Notification>)
    ensures UnreadCount([n] + ns) == UnreadCount(ns) + (if n.read then 0 else 1)
  {
    assert ([n] + ns)[1..] == ns;
  }

  /** Marking one id read never raises the unread count. */
  lemma {:induction false} MarkReadNeverIncreasesUnread(ns: seq<Notification>, id: string)
    ensures UnreadCount(MarkRead(ns, id)) <= UnreadCount(ns)
  {
    if ns != [] {
      MarkReadNeverIncreasesUnread(ns[1..], id);
      assert MarkRead(ns, id)[1..] == MarkRead(ns[1..], id);
    }
  }

  /** Marking an id no entry carries changes nothing. */
  lemma MarkReadOfAbsentIdIsIdentity(ns: seq<Notification>, id: string)
    requires forall i :: 0 <= i < |ns| ==> ns[i].id != id
    ensures MarkRead(ns, id) == ns
  {
  }

  /** After marking all read nothing is unread, and marking all read again
      changes nothing. */
  lemma MarkAllReadClearsUnread(ns: seq<Notification>)
    ensures UnreadCount(MarkAllRead(ns)) == 0
    ensures MarkAllRead(MarkAllRead(ns)) == MarkAllRead(ns)
  {
  }

  /** The `localStorage` key of a user's list. */
  function StorageKey(userId: string): (k: string)
    ensures |k| == |userId| + 14 && k[14..] == userId
  {
    "notifications_" + userId
  }

  /** Different users' lists are saved under different keys. */
  lemma StorageKeysDistinct(a: string, b: string)
    requires a != b
    ensures StorageKey(a) != StorageKey(b)
  {
    assert StorageKey(a)[14..] == a;
  }

  /** The provider: the current list, the signed-in user's id, and the
      `localStorage` entries it reads and writes. */
  class NotificationCenter {
    var notifications: seq<Notification>
    var user: Option<string>
    var storage: map<string, seq<Notification>>

    constructor (saved: map<string, seq<Notification>>)
      ensures notifications == [] && user.None? && storage == saved
    {
      notifications, user, storage := [], None, saved;
    }

    /** `saveNotifications`: writes `ns` under the user's key when a user is
        signed in, and nothing otherwise. */
    method Save(ns: seq<Notification>)
      modifies this`storage
      ensures storage == if user.Some? then old(storage)[StorageKey(user.value) := ns] else old(storage)
    {
      if user.Some? {
        storage := storage[StorageKey(user.value) := ns];
      }
    }

    /** The load effect, run when the signed-in user changes: a saved list
        replaces the current one; with no user or nothing saved the current
        list stays. */
    method OnUserChange(newUser: Option<string>)
      modifies this`user, this`notifications
      ensures user == newUser
      ensures if newUser.Some? && StorageKey(newUser.value) in storage
              then notifications == storage[StorageKey(newUser.value)]
              else notifications == old(notifications)
    {
      user := newUser;
      if newUser.Some? && StorageKey(newUser.value) in storage {
        notifications := storage[StorageKey(newUser.value)];
      }
    }

    /** `addNotification` at time `now`: the stamped entry goes first, the
        old entries follow in order, and the new list is saved. */
    method AddNotification(d: Draft, now: int)
      modifies this`notifications, this`storage
      ensures notifications == [Stamp(d, now)] + old(notifications)
      ensures storage == if user.Some? then old(storage)[StorageKey(user.value) := notifications] else old(storage)
    {
      var updated := [Stamp(d, now)] + notifications;
      notifications := updated;
      Save(updated);
    }

    /** `markAsRead(id)`, saved. */
    method MarkAsRead(id: string)
      modifies this`notifications, this`storage
      ensures notifications == MarkRead(old(notifications), id)
      ensures storage == if user.Some? then old(storage)[StorageKey(user.value) := notifications] else old(storage)
    {
      var updated := MarkRead(notifications, id);
      notifications := updated;
      Save(updated);
    }

    /** `markAllAsRead`, saved. */
    method MarkAllAsRead()
      modifies this`notifications, this`storage
      ensures notifications == MarkAllRead(old(notifications))
      ensures storage == if user.Some? then old(storage)[StorageKey(user.value) := notifications] else old(storage)
    {
      var updated := MarkAllRead(notifications);
      notifications := updated;
      Save(updated);
    }
  }
}

=== FILE: tables.dfy ===
/** The backend tables the core reads and writes, each a map from row id to
    row. Only the columns the core sets or reads are kept; `id`, `created_at`
    and `updated_at` are filled in by the backend, and the id is the map key.
    A query or write either succeeds or fails, and which one happens is a
    parameter of every operation that talks to the backend. */
module Tables {
  import opened Common

  /** A row of `videos` or of `videos_for_approval`: the two tables share
      these columns. `scheduledDate` is the `scheduled_date` key the upload
      form adds for scheduled videos. */
  datatype VideoRecord = VideoRecord(
    title: string,
    description: Option<string>,
    videoUrl: Option<string>,
    thumbnail: Option<string>,
    creatorId: Option<string>,
    views: Option<int>,
    visibility: Option<string>,
    scheduledDate: Option<string>)

  /** A row of `thumbnails`. */
  datatype ThumbnailRow = ThumbnailRow(videoId: string, thumbnailUrl: string, isActive: bool)

  /** A row of `video_views`; `userId` is null for an anonymous viewer. */
  datatype ViewRow = ViewRow(videoId: string, userId: Option<string>, sessionId: string)

  /** A row of `follows`. */
  datatype FollowRow = FollowRow(followerId: string, followingId: string)

  class Database {
    var videos: map<string, VideoRecord>
    var videosForApproval: map<string, VideoRecord>
    var thumbnails: map<string, ThumbnailRow>
    var videoViews: map<string, ViewRow>
    var follows: map<string, FollowRow>
  }

  /** An insert under a backend-chosen `id` succeeds when the call succeeds
      and the id is not already taken (a taken primary key is an error reply). */
  predicate InsertSucceeds<R>(callOk: bool, table: map<string, R>, id: string)
  {
    callOk && id !in table
  }

  /** The ids of the `video_views` rows for one video. */
  function ViewIdsOf(views: map<string, ViewRow>, videoId: string): (ids: set<string>)
    ensures ids <= views.Keys
  {
    set k | k in views && views[k].videoId == videoId
  }

  /** A view row counts for one video only: the counts of two different
      videos never share a row, so together they never exceed the table. */
  lemma ViewIdsDisjoint(views: map<string, ViewRow>, a: string, b: string)
    requires a != b
    ensures ViewIdsOf(views, a) !! ViewIdsOf(views, b)
    ensures ViewIdsOf(views, a) + ViewIdsOf(views, b) <= views.Keys
  {
  }

  /** Adding a row for `videoId` under a new id adds one to its count and
      leaves every other video's count alone. */
  lemma ViewCountAfterInsert(views: map<string, ViewRow>, id: string, row: ViewRow, v: string)
    requires id !in views
    ensures |ViewIdsOf(views[id := row], v)|
            == |ViewIdsOf(views, v)| + (if row.videoId == v then 1 else 0)
  {
    if row.videoId == v {
      assert ViewIdsOf(views[id := row], v) == ViewIdsOf(views, v) + {id};
    } else {
      assert ViewIdsOf(views[id := row], v) == ViewIdsOf(views, v);
    }
  }

  /** The ids of the `follows` rows whose `following_id` is the given account. */
  function FollowIdsTo(follows: map<string, FollowRow>, followingId: string): (ids: set<string>)
    ensures ids <= follows.Keys
    ensures ids == {} <==> forall k :: k in follows ==> follows[k].followingId != followingId
  {
    var ids := set k | k in follows && follows[k].followingId == followingId;
    assert forall k :: k in follows && follows[k].followingId == followingId ==> k in ids;
    ids
  }

  /** The ids of the `follows` rows for one (follower, target) pair: the
      rows the status query matches are among the rows the count query counts. */
  function FollowIdsFor(follows: map<string, FollowRow>, followerId: string, followingId: string): (ids: set<string>)
    ensures ids <= FollowIdsTo(follows, followingId)
  {
    set k | k in follows && follows[k] == FollowRow(followerId, followingId)
  }

  /** `delete().eq('follower_id', a).eq('following_id', b)`: every matching
      row goes, every other row stays. */
  function DeleteFollows(follows: map<string, FollowRow>, followerId: string, followingId: string): (r: map<string, FollowRow>)
    ensures r.Keys == follows.Keys - FollowIdsFor(follows, followerId, followingId)
    ensures forall k :: k in r ==> r[k] == follows[k]
  {
    map k | k in follows && follows[k] != FollowRow(followerId, followingId) :: follows[k]
  }
}

=== FILE: upload_modal.dfy ===
/** The four-step upload wizard: details, video file, visibility, review.
    The last step stores the files, builds the video record and routes it:
    an admin's record is published straight into `videos`, anyone else's
    waits in `videos_for_approval`. */
module UploadModal {
  import opened Common
  import opened Tables

  datatype Visibility = Public | Private | Scheduled

  /** The text stored in the `visibility` column. */
  function VisibilityText(v: Visibility): (t: string)
    ensures t in {"public", "private", "scheduled"}
  {
    match v
    case Public => "public"
    case Private => "private"
    case Scheduled => "scheduled"
  }

  /** Different choices are stored as different texts, so the column
      determines the choice. */
  lemma VisibilityTextInjective(a: Visibility, b: Visibility)
    requires VisibilityText(a) == VisibilityText(b)
    ensures a == b
  {
  }

  /** A file picked in the form; its bytes never matter to the core. */
  datatype File = File(name: string)

  /** The signed-in profile, as this component reads it. */
  datatype Profile = Profile(id: string, name: string, isAdmin: bool)

  /** What the storage and database calls of one upload answer. */
  datatype UploadReplies = UploadReplies(
    videoUploadOk: bool,      // storage upload of the video file
    videoUrl: string,         // its public URL
    thumbnailUploadOk: bool,  // storage upload of the thumbnail, if one was picked
    thumbnailUrl: string,     // its public URL
    insertOk: bool,           // insert of the video record
    newVideoId: string,       // id the backend gives the new record
    thumbnailRowOk: bool,     // insert into `thumbnails`
    thumbnailRowId: string)   // id the backend gives that row

  /** Which toast the upload ends with. */
  datatype UploadOutcome = MissingFields | UploadFailed | Published(id: string) | SentForApproval(id: string)

  /** `thumbnailUrl` after the optional thumbnail upload: a failed upload
      leaves it null and does not abort. */
  function ThumbnailUrl(hasThumbnail: bool, replies: UploadReplies): (url: Option<string>)
    ensures url.Some? <==> hasThumbnail && replies.thumbnailUploadOk
    ensures url.Some? ==> url.value == replies.thumbnailUrl
  {
    if hasThumbnail && replies.thumbnailUploadOk then Some(replies.thumbnailUrl) else None
  }

  /** The `videoRecord` literal. */
  function BuildRecord(title: string, description: string, videoUrl: string, thumbnail: Option<string>,
                       creatorId: string, visibility: Visibility, scheduledDate: string): (r: VideoRecord)
    ensures r.title == Trim(title)
    ensures r.description.None? <==> IsBlank(description)
    ensures r.description.Some? ==> r.description.value == Trim(description) && r.description.value != ""
    ensures r.videoUrl == Some(videoUrl) && r.thumbnail == thumbnail
    ensures r.creatorId == Some(creatorId) && r.views == Some(0)
    ensures r.visibility == Some(VisibilityText(visibility))
    ensures r.scheduledDate.Some? <==> visibility == Scheduled
    ensures r.scheduledDate.Some? ==> r.scheduledDate.value == scheduledDate
  {
    VideoRecord(
      Trim(title),
      if Trim(description) == "" then None else Some(Trim(description)),
      Some(videoUrl), thumbnail, Some(creatorId), Some(0),
      Some(VisibilityText(visibility)),
      if visibility == Scheduled then Some(scheduledDate) else None)
  }

  /** Whether `nextStep` moves on from `step` with these form contents. */
  predicate CanAdvance(step: int, title: string, description: string, hasVideo: bool,
                       visibility: Visibility, scheduledDate: string)
  {
    || (step == 1 && !IsBlank(title) && !IsBlank(description))
    || (step == 2 && hasVideo)
    || (step == 3 && !(visibility == Scheduled && scheduledDate == ""))
  }

  /** The `disabled` expression of the Next button. */
  predicate NextDisabled(step: int, title: string, description: string, hasVideo: bool,
                         visibility: Visibility, scheduledDate: string)
  {
    || (step == 1 && (IsBlank(title) || IsBlank(description)))
    || (step == 2 && !hasVideo)
    || (step == 3 && visibility == Scheduled && scheduledDate == "")
  }

  /** On steps 1 to 3, where the Next button is shown, it is disabled exactly
      when `nextStep` would stay put. */
  lemma NextDisabledIffStuck(step: int, title: string, description: string, hasVideo: bool,
                             visibility: Visibility, scheduledDate: string)
    requires 1 <= step <= 3
    ensures NextDisabled(step, title, description, hasVideo, visibility, scheduledDate)
            <==> !CanAdvance(step, title, description, hasVideo, visibility, scheduledDate)
  {
  }

  class UploadForm {
    var currentStep: int
    var title: string
    var description: string
    var videoFile: Option<File>
    var thumbnailFile: Option<File>
    var visibility: Visibility
    var scheduledDate: string
    var isUploading: bool
    var completedSteps: seq<int>

    /** The wizard is always on one of its four steps, and only steps 1 to 3
        are ever recorded as completed (possibly more than once). */
    ghost predicate Valid()
      reads this
    {
      1 <= currentStep <= 4 && forall k :: 0 <= k < |completedSteps| ==> 1 <= completedSteps[k] <= 3
    }

    /** The form is empty and on step 1. */
    ghost predicate IsFresh()
      reads this
    {
      && currentStep == 1 && title == "" && description == ""
      && videoFile == None && thumbnailFile == None
      && visibility == Public && scheduledDate == "" && completedSteps == []
    }

    constructor ()
      ensures Valid() && IsFresh() && !isUploading
    {
      currentStep, title, description := 1, "", "";
      videoFile, thumbnailFile := None, None;
      visibility, scheduledDate := Public, "";
      isUploading, completedSteps := false, [];
    }

    /** `nextStep`: advance and record the step left behind when its fields
        are filled in; otherwise change nothing. */
    method NextStep()
      requires Valid()
      modifies this
      ensures Valid()
      ensures var ok := CanAdvance(old(currentStep), title, description, videoFile.Some?, visibility, scheduledDate);
        && currentStep == (if ok then old(currentStep) + 1 else old(currentStep))
        && completedSteps == (if ok then old(completedSteps) + [old(currentStep)] else old(completedSteps))
      ensures title == old(title) && description == old(description)
      ensures videoFile == old(videoFile) && thumbnailFile == old(thumbnailFile)
      ensures visibility == old(visibility) && scheduledDate == old(scheduledDate)
      ensures isUploading == old(isUploading)
    {
      if currentStep == 1 && !IsBlank(title) && !IsBlank(description) {
        completedSteps := completedSteps + [1];
        currentStep := 2;
      } else if currentStep == 2 && videoFile.Some? {
        completedSteps := completedSteps + [2];
        currentStep := 3;
      } else if currentStep == 3 {
        if visibility == Scheduled && scheduledDate == "" {
          return;
        }
        completedSteps := completedSteps + [3];
        currentStep := 4;
      }
    }

    /** `prevStep`: back one step, never below step 1. */
    method PrevStep()
      requires Valid()
      modifies this`currentStep
      ensures Valid()
      ensures currentStep == if old(currentStep) > 1 then old(currentStep) - 1 else 1
    {
      if currentStep > 1 {
        currentStep := currentStep - 1;
      }
    }

    /** `handleReset`: back to an empty form on step 1. */
    method Reset()
      modifies this
      ensures Valid() && IsFresh() && isUploading == old(isUploading)
    {
      title, description := "", "";
      videoFile, thumbnailFile := None, None;
      visibility, scheduledDate := Public, "";
      currentStep, completedSteps := 1, [];
    }

    /** `handleFinalUpload`. With no profile, a blank title or no video file
        nothing happens. Otherwise the video is stored, then the thumbnail if
        one was picked (its failure is only logged), then the record is
        routed (see `StoreRecord`). Success resets the form; any failure
        keeps it. `isUploading` is false once the upload has run, whatever
        its outcome. */
    method FinalUpload(profile: Option<Profile>, db: Database, replies: UploadReplies)
      returns (outcome: UploadOutcome)
      requires Valid()
      modifies this, db
      ensures Valid()
      ensures outcome == MissingFields <==> profile.None? || IsBlank(old(title)) || old(videoFile).None?
      ensures outcome == MissingFields ==>
        && db.videos == old(db.videos) && db.videosForApproval == old(db.videosForApproval)
        && db.thumbnails == old(db.thumbnails) && isUploading == old(isUploading)
      ensures outcome != MissingFields && !replies.videoUploadOk ==>
        && outcome == UploadFailed
        && db.videos == old(db.videos) && db.videosForApproval == old(db.videosForApproval)
        && db.thumbnails == old(db.thumbnails)
      ensures outcome != MissingFields && replies.videoUploadOk ==>
        Routed(old(db.videos), old(db.videosForApproval), old(db.thumbnails),
               profile.value.isAdmin,
               BuildRecord(old(title), old(description), replies.videoUrl,
                           ThumbnailUrl(old(thumbnailFile).Some?, replies),
                           profile.value.id, old(visibility), old(scheduledDate)),
               replies, outcome, db.videos, db.videosForApproval, db.thumbnails)
      ensures outcome != MissingFields && replies.videoUploadOk ==>
        (outcome == UploadFailed <==>
         !InsertSucceeds(replies.insertOk, if profile.value.isAdmin then old(db.videos) else old(db.videosForApproval),
                         replies.newVideoId))
      ensures outcome != MissingFields ==> !isUploading
      ensures outcome.Published? || outcome.SentForApproval? ==> IsFresh()
      ensures !(outcome.Published? || outcome.SentForApproval?) ==>
        && currentStep == old(currentStep) && completedSteps == old(completedSteps)
        && title == old(title) && description == old(description)
        && videoFile == old(videoFile) && thumbnailFile == old(thumbnailFile)
        && visibility == old(visibility) && scheduledDate == old(scheduledDate)
      ensures db.videoViews == old(db.videoViews) && db.follows == old(db.follows)
    {
      if profile.None? || IsBlank(title) || videoFile.None? {
        return MissingFields;
      }
      isUploading := true;
      if !replies.videoUploadOk {
        isUploading := false;
        return UploadFailed;
      }
      var record := BuildRecord(title, description, replies.videoUrl, ThumbnailUrl(thumbnailFile.Some?, replies),
                                profile.value.id, visibility, scheduledDate);
      outcome := StoreRecord(db, profile.value.isAdmin, record, replies);
      if outcome != UploadFailed {
        Reset();
      }
      isUploading := false;
    }
  }

  /** The tables after routing `record`: an admin's goes into `videos`, any
      other into `videos_for_approval`, never both; when the insert fails
      nothing is written; a `thumbnails` row is added only after a stored
      record that has a non-empty thumbnail URL, and its failure is
      ignored. */
  ghost predicate Routed(videos: map<string, VideoRecord>, pending: map<string, VideoRecord>,
                         thumbnails: map<string, ThumbnailRow>, isAdmin: bool, record: VideoRecord,
                         replies: UploadReplies, outcome: UploadOutcome,
                         videos': map<string, VideoRecord>, pending': map<string, VideoRecord>,
                         thumbnails': map<string, ThumbnailRow>)
  {
    var id := replies.newVideoId;
    var stored := InsertSucceeds(replies.insertOk, if isAdmin then videos else pending, id);
    && outcome == (if !stored then UploadFailed else if isAdmin then Published(id) else SentForApproval(id))
    && videos' == (if stored && isAdmin then videos[id := record] else videos)
    && pending' == (if stored && !isAdmin then pending[id := record] else pending)
    && thumbnails' == (if stored && record.thumbnail.Some? && record.thumbnail.value != ""
                          && InsertSucceeds(replies.thumbnailRowOk, thumbnails, replies.thumbnailRowId)
                       then thumbnails[replies.thumbnailRowId := ThumbnailRow(id, record.thumbnail.value, true)]
                       else thumbnails)
  }

  /** The insert of `handleFinalUpload` and the `thumbnails` row after it. */
  method StoreRecord(db: Database, isAdmin: bool, record: VideoRecord, replies: UploadReplies)
    returns (outcome: UploadOutcome)
    modifies db
    ensures Routed(old(db.videos), old(db.videosForApproval), old(db.thumbnails), isAdmin, record,
                   replies, outcome, db.videos, db.videosForApproval, db.thumbnails)
    ensures db.videoViews == old(db.videoViews) && db.follows == old(db.follows)
  {
    var id := replies.newVideoId;
    if isAdmin {
      if !InsertSucceeds(replies.insertOk, db.videos, id) {
        return UploadFailed;
      }
      db.videos := db.videos[id := record];
      outcome := Published(id);
    } else {
      if !InsertSucceeds(replies.insertOk, db.videosForApproval, id) {
        return UploadFailed;
      }
      db.videosForApproval := db.videosForApproval[id := record];
      outcome := SentForApproval(id);
    }
    if record.thumbnail.Some? && record.thumbnail.value != "" && InsertSucceeds(replies.thumbnailRowOk, db.thumbnails, replies.thumbnailRowId) {
      db.thumbnails := db.thumbnails[replies.thumbnailRowId := ThumbnailRow(id, record.thumbnail.value, true)];
    }
  }

  /** A published or pending upload holds exactly the record built from the
      form: its trimmed, non-blank title and zero views, under the new id. */
  lemma RoutedRecordIsStored(videos: map<string, VideoRecord>, pending: map<string, VideoRecord>,
                             thumbnails: map<string, ThumbnailRow>, isAdmin: bool, title: string,
                             record: VideoRecord, replies: UploadReplies, outcome: UploadOutcome,
                             videos': map<string, VideoRecord>, pending': map<string, VideoRecord>,
                             thumbnails': map<string, ThumbnailRow>)
    requires Routed(videos, pending, thumbnails, isAdmin, record, replies, outcome, videos', pending', thumbnails')
    requires record.title == Trim(title) && !IsBlank(title)
    ensures outcome.Published? ==> outcome.id in videos' && videos'[outcome.id] == record
                                   && !IsBlank(videos'[outcome.id].title) && pending' == pending
    ensures outcome.SentForApproval? ==> outcome.id in pending' && pending'[outcome.id] == record
                                         && !IsBlank(pending'[outcome.id].title) && videos' == videos
    ensures outcome == UploadFailed ==> videos' == videos && pending' == pending && thumbnails' == thumbnails
  {
    if !outcome.UploadFailed? {
      TrimIdempotent(title);
    }
  }
}

=== FILE: video_card.dfy ===
/** The two display formatters of a video card: how long ago a video was
    created, in day/week/month/year buckets, and which suffix a view count
    is shown with. */
module VideoCard {
  import opened Common

  /** Milliseconds in a day: 1000 * 60 * 60 * 24. */
  const MsPerDay: int := 86400000

  /** `Math.floor(diff / MsPerDay)` for a whole number of milliseconds. */
  function DaysBetween(nowMs: int, thenMs: int): (days: int)
    ensures days * MsPerDay <= nowMs - thenMs < (days + 1) * MsPerDay
    ensures nowMs < thenMs ==> days < 0
    ensures nowMs >= thenMs ==> days >= 0
  {
    (nowMs - thenMs) / MsPerDay
  }

  /** The bucket `formatTimeAgo` picks; `n` is the number it shows. */
  datatype Age = Today | OneDay | Days(n: int) | Weeks(n: int) | Months(n: int) | Years(n: int)

  /** The `if` chain of `formatTimeAgo` on the whole number of days. */
  function AgeOf(days: int): (a: Age)
    ensures a == Today <==> days == 0
    ensures a == OneDay <==> days == 1
    ensures a.Days? <==> days < 7 && days != 0 && days != 1
    ensures a.Days? ==> a.n == days
    ensures a.Weeks? <==> 7 <= days < 30
    ensures a.Weeks? ==> 1 <= a.n <= 4 && 7 * a.n <= days < 7 * a.n + 7
    ensures a.Months? <==> 30 <= days < 365
    ensures a.Months? ==> 1 <= a.n <= 12 && 30 * a.n <= days < 30 * a.n + 30
    ensures a.Years? <==> 365 <= days
    ensures a.Years? ==> a.n >= 1 && 365 * a.n <= days < 365 * a.n + 365
  {
    if days == 0 then Today
    else if days == 1 then OneDay
    else if days < 7 then Days(days)
    else if days < 30 then Weeks(days / 7)
    else if days < 365 then Months(days / 30)
    else Years(days / 365)
  }

  /** The text shown for a bucket. */
  function Render(a: Age): string
  {
    match a
    case Today => "Today"
    case OneDay => "1 day ago"
    case Days(n) => IntToString(n) + " days ago"
    case Weeks(n) => IntToString(n) + " weeks ago"
    case Months(n) => IntToString(n) + " months ago"
    case Years(n) => IntToString(n) + " years ago"
  }

  /** `formatTimeAgo(date)` evaluated at time `nowMs`. */
  function FormatTimeAgo(nowMs: int, createdMs: int): string
  {
    Render(AgeOf(DaysBetween(nowMs, createdMs)))
  }

  /** A creation time in the future lands in the "d days ago" branch with a
      negative d. */
  lemma FutureDateShowsNegativeDays(nowMs: int, createdMs: int)
    requires createdMs > nowMs
    ensures var a := AgeOf(DaysBetween(nowMs, createdMs)); a.Days? && a.n < 0
    ensures FormatTimeAgo(nowMs, createdMs)
            == IntToString(DaysBetween(nowMs, createdMs)) + " days ago"
  {
  }

  function EndsWith(s: string, suffix: string): bool
  {
    |suffix| <= |s| && s[|s| - |suffix|..] == suffix
  }

  /** Reads back the bucket from the text shown; the inverse of `Render`. */
  function ParseAge(s: string): Option<Age>
  {
    if s == "Today" then Some(Today)
    else if s == "1 day ago" then Some(OneDay)
    else if EndsWith(s, " days ago") then NumberedAge(ParseInt(s[..|s| - 9]), 0)
    else if EndsWith(s, " weeks ago") then NumberedAge(ParseInt(s[..|s| - 10]), 1)
    else if EndsWith(s, " months ago") then NumberedAge(ParseInt(s[..|s| - 11]), 2)
    else if EndsWith(s, " years ago") then NumberedAge(ParseInt(s[..|s| - 10]), 3)
    else None
  }

  function NumberedAge(n: Option<int>, unit: nat): Option<Age>
  {
    match n
    case None => None
    case Some(v) =>
      if unit == 0 then Some(Days(v))
      else if unit == 1 then Some(Weeks(v))
      else if unit == 2 then Some(Months(v))
      else Some(Years(v))
  }

  /** Every bucket `formatTimeAgo` can produce is read back from its text, so
      two different buckets never show the same text. */
  lemma {:induction false} RenderRoundTrip(days: int)
    ensures ParseAge(Render(AgeOf(days))) == Some(AgeOf(days))
  {
    match AgeOf(days)
    case Today =>
    case OneDay =>
    case Days(n) => DaysRoundTrip(n);
    case Weeks(n) => WeeksRoundTrip(n);
    case Months(n) => MonthsRoundTrip(n);
    case Years(n) => YearsRoundTrip(n);
  }

  /** The number in front of a suffix is read back. */
  lemma NumberBeforeSuffix(n: int, suffix: string)
    ensures var s := IntToString(n) + suffix;
      EndsWith(s, suffix) && ParseInt(s[..|s| - |suffix|]) == Some(n)
  {
    var s := IntToString(n) + suffix;
    assert s[..|s| - |suffix|] == IntToString(n);
    assert s[|s| - |suffix|..] == suffix;
    IntToStringRoundTrip(n);
  }

  lemma DaysRoundTrip(n: int)
    ensures ParseAge(Render(Days(n))) == Some(Days(n))
  {
    var s := Render(Days(n));
    NumberBeforeSuffix(n, " days ago");
    assert s != "Today" && s != "1 day ago" by {
      assert s[0] == IntToString(n)[0];
      if n < 0 { assert s[0] == '-'; } else { assert '0' <= s[0] <= '9'; }
    }
  }

  lemma WeeksRoundTrip(n: int)
    ensures ParseAge(Render(Weeks(n))) == Some(Weeks(n))
  {
    var s := Render(Weeks(n));
    NumberBeforeSuffix(n, " weeks ago");
    assert s[|s| - 10..] == " weeks ago";
    assert s[|s| - 9] == 'w';
    assert s != "Today" && s != "1 day ago" && !EndsWith(s, " days ago");
  }

  lemma MonthsRoundTrip(n: int)
    ensures ParseAge(Render(Months(n))) == Some(Months(n))
  {
    var s := Render(Months(n));
    NumberBeforeSuffix(n, " months ago");
    assert s[|s| - 11..] == " months ago";
    assert s[|s| - 9] == 'o' && s[|s| - 10] == 'm';
    assert s[|s| - 9..][0] != " days ago"[0];
    assert s[|s| - 10..][0] != " weeks ago"[0];
    assert s != "Today" && s != "1 day ago" && !EndsWith(s, " days ago") && !EndsWith(s, " weeks ago");
  }

  lemma YearsRoundTrip(n: int)
    ensures ParseAge(Render(Years(n))) == Some(Years(n))
  {
    var s := Render(Years(n));
    NumberBeforeSuffix(n, " years ago");
    assert s[|s| - 10..] == " years ago";
    assert s[|s| - 9] == 'y' && s[|s| - 10] == ' ';
    assert s[|s| - 9..][0] != " days ago"[0];
    assert s[|s| - 10..][1] != " weeks ago"[1];
    assert s != "Today" && s != "1 day ago";
    assert !EndsWith(s, " days ago") && !EndsWith(s, " weeks ago") && !EndsWith(s, " months ago");
  }

  // ---------------------------------------------------------------------
  // formatViews

  /** Which suffix `formatViews` gives a count. */
  datatype Scale = Plain | Thousands | Millions

  function Rank(s: Scale): nat
  {
    match s
    case Plain => 0
    case Thousands => 1
    case Millions => 2
  }

  /** The threshold test of `formatViews`. */
  function ScaleOf(views: int): (s: Scale)
    ensures s == Millions <==> views >= 1000000
    ensures s == Thousands <==> 1000 <= views < 1000000
    ensures s == Plain <==> views < 1000
  {
    if views >= 1000000 then Millions
    else if views >= 1000 then Thousands
    else Plain
  }

  /** A larger count never gets a smaller suffix. */
  lemma ScaleMonotonic(a: int, b: int)
    requires a <= b
    ensures Rank(ScaleOf(a)) <= Rank(ScaleOf(b))
  {
  }

  /** `formatViews` for a count below 1000: the count in plain decimal. The
      other two branches show `toFixed(1)` of a quotient, which this model
      does not render. */
  function FormatPlainViews(views: int): (s: string)
    requires ScaleOf(views) == Plain
    ensures ParseInt(s) == Some(views)
    ensures views >= 0 ==> 1 <= |s| <= 3
  {
    IntToStringRoundTrip(views);
    assert 10 <= views ==> |NatToString(views)| == |NatToString(views / 10)| + 1;
    assert 100 <= views ==> |NatToString(views / 10)| == |NatToString(views / 10 / 10)| + 1;
    IntToString(views)
  }
}

=== FILE: video_memory.dfy ===
/** The cache of on-page video elements: one insertion-ordered map from
    video id to element and one from video id to "is visible", with eviction
    of the oldest invisible entries once too many elements are registered. */
module VideoMemory {
  import opened Common

  /** No key occurs twice. */
  predicate Distinct(ks: seq<string>)
  {
    forall i, j :: 0 <= i < j < |ks| ==> ks[i] != ks[j]
  }

  /** The members of a key list. */
  function Elems(ks: seq<string>): (s: set<string>)
    ensures |ks| == 0 ==> s == {}
  {
    set k | k in ks
  }

  /** A key list without repeats has as many members as entries. */
  lemma {:induction false} DistinctElemsCount(ks: seq<string>)
    requires Distinct(ks)
    ensures |Elems(ks)| == |ks|
  {
    if ks != [] {
      var rest := ks[1..];
      DistinctElemsCount(rest);
      assert Elems(ks) == Elems(rest) + {ks[0]};
      assert ks[0] !in Elems(rest);
    }
  }

  /** `ks` without the keys in `gone`, order kept. */
  function Without(ks: seq<string>, gone: set<string>): (r: seq<string>)
    ensures |r| <= |ks|
  {
    if ks == [] then []
    else (if ks[0] in gone then [] else [ks[0]]) + Without(ks[1..], gone)
  }

  /** One step of `Without` on a list built by consing. */
  lemma WithoutCons(k: string, ks: seq<string>, gone: set<string>)
    ensures Without([k] + ks, gone) == (if k in gone then [] else [k]) + Without(ks, gone)
  {
    assert ([k] + ks)[1..] == ks;
  }

  /** A key survives `Without` exactly when it was there and not dropped. */
  lemma {:induction false} WithoutMember(ks: seq<string>, gone: set<string>, k: string)
    ensures k in Without(ks, gone) <==> k in ks && k !in gone
  {
    if ks != [] {
      WithoutMember(ks[1..], gone, k);
      assert k in ks <==> k == ks[0] || k in ks[1..];
    }
  }

  /** A JavaScript `Map` keyed by video id: the keys in insertion order and
      the values by key. */
  datatype OrderedMap<V> = OrderedMap(keys: seq<string>, values: map<string, V>)
  {
    predicate Wf()
    {
      Distinct(keys) && values.Keys == Elems(keys)
    }

    /** `map.size`. */
    function Size(): nat
    {
      |keys|
    }
  }

  function EmptyMap<V>(): (m: OrderedMap<V>)
    ensures m.Wf() && m.Size() == 0
  {
    OrderedMap([], map[])
  }

  /** `map.set(k, v)`: a known key keeps its place, a new one goes last. */
  function Put<V>(m: OrderedMap<V>, k: string, v: V): (r: OrderedMap<V>)
    requires m.Wf()
    ensures r.Wf()
    ensures r.values == m.values[k := v]
    ensures k in m.values ==> r.keys == m.keys
    ensures k !in m.values ==> r.keys == m.keys + [k]
    ensures r.Size() <= m.Size() + 1
  {
    if k in m.values then OrderedMap(m.keys, m.values[k := v])
    else
      assert Elems(m.keys + [k]) == Elems(m.keys) + {k};
      OrderedMap(m.keys + [k], m.values[k := v])
  }

  /** Dropping keys from a key list keeps it free of repeats. */
  lemma {:induction false} WithoutDistinct(ks: seq<string>, gone: set<string>)
    requires Distinct(ks)
    ensures Distinct(Without(ks, gone))
  {
    if ks != [] {
      WithoutDistinct(ks[1..], gone);
      WithoutMember(ks[1..], gone, ks[0]);
      assert ks[0] !in ks[1..];
    }
  }

  /** `Without` keeps exactly the members of the set difference. */
  lemma WithoutElems(ks: seq<string>, gone: set<string>)
    ensures Elems(Without(ks, gone)) == Elems(ks) - gone
  {
    forall k | true
      ensures k in Elems(Without(ks, gone)) <==> k in Elems(ks) - gone
    {
      WithoutMember(ks, gone, k);
    }
  }

  /** `map.delete(k)`: the key and its value go, the rest keep their order. */
  function Delete<V>(m: OrderedMap<V>, k: string): (r: OrderedMap<V>)
    requires m.Wf()
    ensures r.Wf()
    ensures r.values == m.values - {k}
    ensures r.keys == Without(m.keys, {k})
  {
    WithoutDistinct(m.keys, {k});
    WithoutElems(m.keys, {k});
    OrderedMap(Without(m.keys, {k}), m.values - {k})
  }

  /** The map after deleting each of `ks` in turn. */
  function DeleteAll<V>(m: OrderedMap<V>, ks: seq<string>): (r: OrderedMap<V>)
    requires m.Wf()
    ensures r.Wf()
  {
    if ks == [] then m else Delete(DeleteAll(m, ks[..|ks| - 1]), ks[|ks| - 1])
  }

  /** Removing two batches of keys is removing their union. */
  lemma {:induction false} WithoutWithout(ks: seq<string>, a: set<string>, b: set<string>)
    ensures Without(Without(ks, a), b) == Without(ks, a + b)
  {
    if ks != [] {
      WithoutWithout(ks[1..], a, b);
      if ks[0] in a {
        assert Without(ks, a) == Without(ks[1..], a);
      } else {
        assert Without(ks, a) == [ks[0]] + Without(ks[1..], a);
        WithoutCons(ks[0], Without(ks[1..], a), b);
      }
    }
  }

  /** Removing no keys changes nothing. */
  lemma {:induction false} WithoutNothing(ks: seq<string>)
    ensures Without(ks, {}) == ks
  {
    if ks != [] {
      WithoutNothing(ks[1..]);
    }
  }

  lemma MapMinusMinus<V>(m: map<string, V>, a: set<string>, b: set<string>)
    ensures (m - a) - b == m - (a + b)
  {
  }

  /** The members of a list with one more key at the end. */
  lemma ElemsSnoc(ks: seq<string>, k: string)
    ensures Elems(ks + [k]) == Elems(ks) + {k}
  {
  }

  /** Deleting a list of keys drops exactly those keys from both the key
      order and the values. */
  lemma {:induction false} DeleteAllRemovesElems<V>(m: OrderedMap<V>, ks: seq<string>)
    requires m.Wf()
    ensures DeleteAll(m, ks).keys == Without(m.keys, Elems(ks))
    ensures DeleteAll(m, ks).values == m.values - Elems(ks)
  {
    if ks == [] {
      WithoutNothing(m.keys);
      assert m.values - {} == m.values;
    } else {
      var init, last := ks[..|ks| - 1], ks[|ks| - 1];
      var before := DeleteAll(m, init);
      assert DeleteAll(m, ks) == Delete(before, last);
      DeleteAllRemovesElems(m, init);
      WithoutWithout(m.keys, Elems(init), {last});
      assert ks == init + [last];
      ElemsSnoc(init, last);
      MapMinusMinus(m.values, Elems(init), {last});
    }
  }

  /** Only the keys present in `ks` matter to `Without`. */
  lemma {:induction false} WithoutOnlyPresent(ks: seq<string>, a: set<string>, b: set<string>)
    requires forall k :: k in ks ==> (k in a <==> k in b)
    ensures Without(ks, a) == Without(ks, b)
  {
    if ks != [] {
      assert ks[0] in ks;
      WithoutOnlyPresent(ks[1..], a, b);
    }
  }

  /** Dropping the first `n` keys of a repeat-free list by value leaves its
      suffix. */
  lemma {:induction false} WithoutPrefix(ks: seq<string>, n: nat)
    requires Distinct(ks) && n <= |ks|
    ensures Without(ks, Elems(ks[..n])) == ks[n..]
  {
    if n == 0 {
      WithoutNothing(ks);
    } else {
      var tail := ks[1..];
      assert ks[0] in Elems(ks[..n]);
      WithoutPrefix(tail, n - 1);
      forall k | k in tail
        ensures k in Elems(ks[..n]) <==> k in Elems(tail[..n - 1])
      {
        assert k != ks[0];
        assert ks[..n] == [ks[0]] + tail[..n - 1];
      }
      WithoutOnlyPresent(tail, Elems(ks[..n]), Elems(tail[..n - 1]));
    }
  }

  /** The ids of `keys` whose flag is false, in key order. */
  function Invisibles(keys: seq<string>, flags: map<string, bool>): (r: seq<string>)
    ensures |r| <= |keys|
  {
    if keys == [] then []
    else (if keys[0] in flags && !flags[keys[0]] then [keys[0]] else []) + Invisibles(keys[1..], flags)
  }

  /** An id is collected exactly when it is a key whose flag is false. */
  lemma {:induction false} InvisiblesMember(keys: seq<string>, flags: map<string, bool>, k: string)
    ensures k in Invisibles(keys, flags) <==> k in keys && k in flags && !flags[k]
  {
    if keys != [] {
      InvisiblesMember(keys[1..], flags, k);
      assert k in keys <==> k == keys[0] || k in keys[1..];
    }
  }

  lemma {:induction false} InvisiblesDistinct(keys: seq<string>, flags: map<string, bool>)
    requires Distinct(keys)
    ensures Distinct(Invisibles(keys, flags))
  {
    if keys != [] {
      InvisiblesDistinct(keys[1..], flags);
      InvisiblesMember(keys[1..], flags, keys[0]);
      assert keys[0] !in keys[1..];
    }
  }

  /** The invisible ids of a visibility map, oldest first, without
      repeats. */
  function InvisibleIds(vis: OrderedMap<bool>): (r: seq<string>)
    requires vis.Wf()
    ensures Distinct(r)
    ensures |r| <= vis.Size()
  {
    InvisiblesDistinct(vis.keys, vis.values);
    Invisibles(vis.keys, vis.values)
  }

  /** Collecting invisible ids one key at a time. */
  lemma {:induction false} InvisiblesSnoc(keys: seq<string>, k: string, flags: map<string, bool>)
    ensures Invisibles(keys + [k], flags)
         == Invisibles(keys, flags) + (if k in flags && !flags[k] then [k] else [])
  {
    if keys == [] {
      assert [k][1..] == [];
    } else {
      assert (keys + [k])[1..] == keys[1..] + [k];
      InvisiblesSnoc(keys[1..], k, flags);
    }
  }

  /** Deleting keys from a visibility map deletes them from its invisible
      ids and nothing else. */
  lemma {:induction false} InvisiblesWithout(keys: seq<string>, flags: map<string, bool>, gone: set<string>)
    ensures Invisibles(Without(keys, gone), flags - gone) == Without(Invisibles(keys, flags), gone)
  {
    if keys != [] {
      InvisiblesWithout(keys[1..], flags, gone);
      var k, rest := keys[0], Invisibles(keys[1..], flags);
      if k in flags && !flags[k] {
        assert Invisibles(keys, flags) == [k] + rest;
        WithoutCons(k, rest, gone);
      } else {
        assert Invisibles(keys, flags) == rest;
      }
      if k in gone {
        assert Without(keys, gone) == Without(keys[1..], gone);
      } else {
        assert Without(keys, gone) == [k] + Without(keys[1..], gone);
        assert ([k] + Without(keys[1..], gone))[1..] == Without(keys[1..], gone);
      }
    }
  }

  /** The ids `cleanupInvisibleVideos` unregisters: the oldest invisible ids
      beyond the first `max`, none when at most `max` are invisible. */
  function Evicted(vis: OrderedMap<bool>, max: nat): (r: seq<string>)
    requires vis.Wf()
    ensures |InvisibleIds(vis)| <= max ==> r == []
    ensures |InvisibleIds(vis)| > max ==> |r| == |InvisibleIds(vis)| - max
    ensures r <= InvisibleIds(vis)
  {
    var inv := InvisibleIds(vis);
    if |inv| > max then inv[..|inv| - max] else []
  }

  /** After eviction exactly `max` invisible ids remain when there were more,
      and the invisible ids are untouched otherwise. */
  lemma EvictionLeavesMaxInvisible(vis: OrderedMap<bool>, max: nat)
    requires vis.Wf()
    ensures var after := DeleteAll(vis, Evicted(vis, max));
      |InvisibleIds(after)| == if |InvisibleIds(vis)| > max then max else |InvisibleIds(vis)|
  {
    var inv := InvisibleIds(vis);
    var gone := Evicted(vis, max);
    var n := |gone|;
    DeleteAllRemovesElems(vis, gone);
    InvisiblesWithout(vis.keys, vis.values, Elems(gone));
    assert gone == inv[..n];
    WithoutPrefix(inv, n);
  }

  /** Eviction and forced cleanup only remove invisible ids: an id marked
      visible keeps both its element and its flag. */
  lemma CleanupKeepsVisible<E>(refs: OrderedMap<E>, vis: OrderedMap<bool>, max: nat, id: string)
    requires refs.Wf() && vis.Wf()
    requires id in vis.values && vis.values[id]
    ensures id in DeleteAll(vis, Evicted(vis, max)).values
    ensures id in refs.values ==> id in DeleteAll(refs, Evicted(vis, max)).values
    ensures id in DeleteAll(vis, InvisibleIds(vis)).values
    ensures id in refs.values ==> id in DeleteAll(refs, InvisibleIds(vis)).values
  {
    var inv, gone := InvisibleIds(vis), Evicted(vis, max);
    InvisiblesMember(vis.keys, vis.values, id);
    assert id !in inv;
    assert id !in gone;
    DeleteAllRemovesElems(vis, gone);
    DeleteAllRemovesElems(refs, gone);
    DeleteAllRemovesElems(vis, inv);
    DeleteAllRemovesElems(refs, inv);
  }

  /** Forced cleanup leaves no invisible id behind. */
  lemma ForceCleanupLeavesNoInvisible(vis: OrderedMap<bool>)
    requires vis.Wf()
    ensures InvisibleIds(DeleteAll(vis, InvisibleIds(vis))) == []
  {
    var inv := InvisibleIds(vis);
    DeleteAllRemovesElems(vis, inv);
    InvisiblesWithout(vis.keys, vis.values, Elems(inv));
    WithoutPrefix(inv, |inv|);
    assert inv[..|inv|] == inv;
  }

  /** Unregistering every key of a map empties it. */
  lemma DeleteAllKeysEmpties<V>(m: OrderedMap<V>)
    requires m.Wf()
    ensures DeleteAll(m, m.keys).Size() == 0 && DeleteAll(m, m.keys).values == map[]
  {
    DeleteAllRemovesElems(m, m.keys);
    WithoutPrefix(m.keys, |m.keys|);
    assert m.keys[..|m.keys|] == m.keys;
    assert (m.values - Elems(m.keys)).Keys == {};
  }

  /** The hook's options; an absent one takes its default. */
  datatype Options = Options(maxCachedVideos: Option<nat>, cleanupThreshold: Option<nat>)

  /** The manager, over an element type `E`. */
  class VideoMemoryManager<E> {
    const maxCachedVideos: nat
    const cleanupThreshold: nat
    var videoRefs: OrderedMap<E>
    var visibility: OrderedMap<bool>

    ghost predicate Valid()
      reads this
    {
      videoRefs.Wf() && visibility.Wf()
    }

    /** The defaults are 50 cached invisible videos and a threshold of 100
        elements. */
    constructor (options: Options)
      ensures Valid() && videoRefs.Size() == 0 && visibility.Size() == 0
      ensures maxCachedVideos == if options.maxCachedVideos.Some? then options.maxCachedVideos.value else 50
      ensures cleanupThreshold == if options.cleanupThreshold.Some? then options.cleanupThreshold.value else 100
    {
      maxCachedVideos := if options.maxCachedVideos.Some? then options.maxCachedVideos.value else 50;
      cleanupThreshold := if options.cleanupThreshold.Some? then options.cleanupThreshold.value else 100;
      videoRefs := EmptyMap();
      visibility := EmptyMap();
    }

    /** `getCachedVideoCount`. */
    function CachedVideoCount(): (n: nat)
      reads this
      requires Valid()
      ensures n == |videoRefs.values.Keys|
    {
      DistinctElemsCount(videoRefs.keys);
      videoRefs.Size()
    }

    /** `registerVideo`: the id now maps to `element`, replacing any earlier
        one; the count grows by at most one. */
    method Register(id: string, element: E)
      requires Valid()
      modifies this`videoRefs
      ensures Valid()
      ensures videoRefs == Put(old(videoRefs), id, element)
    {
      videoRefs := Put(videoRefs, id, element);
    }

    /** `unregisterVideo`: the id leaves both maps. */
    method Unregister(id: string)
      requires Valid()
      modifies this`videoRefs, this`visibility
      ensures Valid()
      ensures videoRefs == Delete(old(videoRefs), id) && visibility == Delete(old(visibility), id)
    {
      videoRefs := Delete(videoRefs, id);
      visibility := Delete(visibility, id);
    }

    /** Unregisters each id of `ids` in turn. */
    method UnregisterAll(ids: seq<string>)
      requires Valid()
      modifies this`videoRefs, this`visibility
      ensures Valid()
      ensures videoRefs == DeleteAll(old(videoRefs), ids) && visibility == DeleteAll(old(visibility), ids)
    {
      var j := 0;
      while j < |ids|
        invariant 0 <= j <= |ids|
        invariant Valid()
        invariant videoRefs == DeleteAll(old(videoRefs), ids[..j])
        invariant visibility == DeleteAll(old(visibility), ids[..j])
      {
        Unregister(ids[j]);
        assert ids[..j + 1][..j] == ids[..j];
        j := j + 1;
      }
      assert ids[..j] == ids;
    }

    /** The `forEach` over the visibility map that collects the invisible
        ids in insertion order. */
    method CollectInvisible() returns (inv: seq<string>)
      requires Valid()
      ensures inv == InvisibleIds(visibility)
    {
      var keys, flags := visibility.keys, visibility.values;
      inv := [];
      var i := 0;
      while i < |keys|
        invariant 0 <= i <= |keys|
        invariant inv == Invisibles(keys[..i], flags)
      {
        var id := keys[i];
        assert id in Elems(keys);
        if !flags[id] {
          inv := inv + [id];
        }
        InvisiblesSnoc(keys[..i], id, flags);
        assert keys[..i + 1] == keys[..i] + [id];
        i := i + 1;
      }
      assert keys[..i] == keys;
    }

    /** `cleanupInvisibleVideos`: unregisters the ids `Evicted` names. */
    method CleanupInvisible()
      requires Valid()
      modifies this`videoRefs, this`visibility
      ensures Valid()
      ensures videoRefs == DeleteAll(old(videoRefs), Evicted(old(visibility), maxCachedVideos))
      ensures visibility == DeleteAll(old(visibility), Evicted(old(visibility), maxCachedVideos))
    {
      var inv := CollectInvisible();
      ghost var gone := Evicted(visibility, maxCachedVideos);
      if |inv| > maxCachedVideos {
        assert inv[..|inv| - maxCachedVideos] == gone;
        UnregisterAll(inv[..|inv| - maxCachedVideos]);
      } else {
        assert gone == [];
      }
    }

    /** `updateVisibility`: records the flag, then runs the eviction when
        more than `cleanupThreshold` elements are registered. */
    method UpdateVisibility(id: string, isVisible: bool)
      requires Valid()
      modifies this`videoRefs, this`visibility
      ensures Valid()
      ensures var vis := Put(old(visibility), id, isVisible);
        if old(videoRefs).Size() > cleanupThreshold
        then videoRefs == DeleteAll(old(videoRefs), Evicted(vis, maxCachedVideos))
             && visibility == DeleteAll(vis, Evicted(vis, maxCachedVideos))
        else videoRefs == old(videoRefs) && visibility == vis
    {
      visibility := Put(visibility, id, isVisible);
      if videoRefs.Size() > cleanupThreshold {
        CleanupInvisible();
      }
    }

    /** `forceCleanup`: unregisters every invisible id. The source deletes
        each entry while its `forEach` visits it, which visits every entry
        once, so this is the same as unregistering the collected ids. */
    method ForceCleanup()
      requires Valid()
      modifies this`videoRefs, this`visibility
      ensures Valid()
      ensures videoRefs == DeleteAll(old(videoRefs), InvisibleIds(old(visibility)))
      ensures visibility == DeleteAll(old(visibility), InvisibleIds(old(visibility)))
    {
      var inv := CollectInvisible();
      UnregisterAll(inv);
    }

    /** The unmount cleanup: unregisters every registered id. */
    method Unmount()
      requires Valid()
      modifies this`videoRefs, this`visibility
      ensures Valid()
      ensures videoRefs == DeleteAll(old(videoRefs), old(videoRefs).keys)
      ensures visibility == DeleteAll(old(visibility), old(videoRefs).keys)
    {
      UnregisterAll(videoRefs.keys);
    }
  }
}

=== FILE: video_watch.dfy ===
/** The watch page's local like and follow toggles. Nothing here reaches the
    backend: the like count lives only in the page's state. */
module VideoWatch {
  import opened Common
  import opened Notifications

  /** The signed-in user, as this page reads it. */
  datatype User = User(id: string, name: string)

  /** The part of the loaded video the handlers use. */
  datatype VideoData = VideoData(id: string, title: string, likes: int, creatorId: string)

  /** The like state after one click: the flag flips and the count follows it. */
  function Flip(liked: bool, likes: int): (r: (bool, int))
    ensures r.0 == !liked
    ensures r.1 == likes + (if r.0 then 1 else -1)
  {
    (!liked, if liked then likes - 1 else likes + 1)
  }

  /** Two clicks restore both the flag and the count. */
  lemma FlipTwiceRestores(liked: bool, likes: int)
    ensures var once := Flip(liked, likes); Flip(once.0, once.1) == (liked, likes)
  {
  }

  /** The notice for a like on `video` by `user`: only on a like (not an
      unlike) and only when the creator is someone else. */
  function LikeNoticeFor(wasLiked: bool, video: Option<VideoData>, user: User): (n: Option<Draft>)
    ensures n.Some? <==> !wasLiked && video.Some? && video.value.creatorId != user.id
    ensures n.Some? ==> n.value.kind == "like" && !n.value.read
    ensures n.Some? ==> n.value.message == user.name + " liked your video \"" + video.value.title + "\""
  {
    if !wasLiked && video.Some? && video.value.creatorId != user.id
    then Some(Draft("like", user.name + " liked your video \"" + video.value.title + "\"", false))
    else None
  }

  /** The follow button is rendered for a signed-in user who is not the
      video's creator. */
  predicate FollowButtonShown(user: Option<User>, video: VideoData)
  {
    user.Some? && video.creatorId != user.value.id
  }

  /** A creator never sees a follow button on their own video, and nobody
      signed out sees one. */
  lemma NoFollowButtonForCreatorOrGuest(user: Option<User>, video: VideoData)
    requires user.None? || user.value.id == video.creatorId
    ensures !FollowButtonShown(user, video)
  {
  }

  class WatchPage {
    var video: Option<VideoData>
    var liked: bool
    var following: bool

    constructor ()
      ensures video.None? && !liked && !following
    {
      video, liked, following := None, false, false;
    }

    /** `handleLike`: without a user nothing changes. Otherwise the flag
        flips, the loaded video's count moves with it, and a like on someone
        else's video yields a notice. */
    method HandleLike(user: Option<User>) returns (notice: Option<Draft>)
      modifies this`liked, this`video
      ensures user.None? ==> liked == old(liked) && video == old(video) && notice.None?
      ensures user.Some? ==>
        && liked == !old(liked)
        && (old(video).None? ==> video.None?)
        && (old(video).Some? ==> video == Some(old(video).value.(likes := Flip(old(liked), old(video).value.likes).1)))
        && notice == LikeNoticeFor(old(liked), old(video), user.value)
    {
      if user.None? {
        return None;
      }
      var wasLiked, shown := liked, video;
      liked := !liked;
      if video.Some? {
        video := Some(video.value.(likes := Flip(wasLiked, video.value.likes).1));
      }
      notice := LikeNoticeFor(wasLiked, shown, user.value);
    }

    /** `handleFollow`: flips the local flag for a signed-in user. */
    method HandleFollow(user: Option<User>)
      modifies this`following
      ensures following == if user.Some? then !old(following) else old(following)
    {
      if user.None? {
        return;
      }
      following := !following;
    }
  }
}

=== FILE: view_tracking.dfy ===
/** Recording that a video was viewed. A per-browser session id is kept in
    `localStorage`; a `video_views` row is added unless the lookup finds one
    for this video, session and user; after a successful insert the video's
    `views` column is set to the number of `video_views` rows the recount
    returns, which the backend caps at its page size. */
module ViewTracking {
  import opened Common
  import opened Tables

  /** The signed-in profile, as this hook reads it. */
  datatype Profile = Profile(id: string)

  /** The `session_id` key of `localStorage`. */
  class SessionStore {
    var sessionId: Option<string>

    constructor (saved: Option<string>)
      ensures sessionId == saved
    {
      sessionId := saved;
    }
  }

  /** What the environment answers during one `trackView`. */
  datatype ViewReplies = ViewReplies(
    generatedSessionId: string,  // a fresh id, used when none is stored
    alreadyViewed: bool,         // the existence lookup found a row
    insertOk: bool,              // insert into `video_views`
    newViewId: string,           // id the backend gives that row
    countOk: bool,               // the recount query returned rows
    maxRows: nat,                // most rows the backend returns in one reply
    updateOk: bool)              // the update of `videos.views`

  /** `data.length` of a select that matches `total` rows: the backend
      returns at most `maxRows` of them, whatever the exact count is. */
  function PageLength(total: nat, maxRows: nat): (n: nat)
    ensures n <= total && n <= maxRows
    ensures n == total <==> total <= maxRows
    ensures n < total ==> n == maxRows
  {
    if total <= maxRows then total else maxRows
  }

  /** `localStorage.getItem('session_id') || generateSessionId()`. */
  function SessionIdFor(stored: Option<string>, generated: string): (sid: string)
    ensures sid == generated || Some(sid) == stored
    ensures generated != "" ==> sid != ""
    ensures stored.Some? && stored.value != "" ==> sid == stored.value
  {
    if stored.Some? && stored.value != "" then stored.value else generated
  }

  /** `profile?.id || null`. */
  function ViewerId(profile: Option<Profile>): (u: Option<string>)
    ensures u != Some("")
    ensures profile.None? ==> u.None?
    ensures u.Some? ==> profile.Some? && u.value == profile.value.id
  {
    if profile.Some? && profile.value.id != "" then Some(profile.value.id) else None
  }

  /** `videos` after the recount: the one video's `views` becomes `count`
      when it exists; every other row is untouched. */
  function SetViews(videos: map<string, VideoRecord>, videoId: string, count: nat): (r: map<string, VideoRecord>)
    ensures r.Keys == videos.Keys
    ensures videoId in r ==> r[videoId] == videos[videoId].(views := Some(count))
    ensures forall k :: k in r && k != videoId ==> r[k] == videos[k]
  {
    if videoId in videos then videos[videoId := videos[videoId].(views := Some(count))] else videos
  }

  /** `trackView` for `videoId` (the one-second delay before it runs is not
      modelled). Every error is swallowed: a failed step just ends the run.
      The count written is the length of the recount's reply, not its exact
      `count`, so it is capped at the backend's page size. */
  method TrackView(videoId: string, profile: Option<Profile>, store: SessionStore, db: Database,
                   replies: ViewReplies)
    modifies store, db
    ensures videoId == "" ==> store.sessionId == old(store.sessionId)
    ensures videoId != "" ==> store.sessionId == Some(SessionIdFor(old(store.sessionId), replies.generatedSessionId))
    ensures var row := ViewRow(videoId, ViewerId(profile), SessionIdFor(old(store.sessionId), replies.generatedSessionId));
      var inserted := videoId != "" && !replies.alreadyViewed
                      && InsertSucceeds(replies.insertOk, old(db.videoViews), replies.newViewId);
      && db.videoViews == (if inserted then old(db.videoViews)[replies.newViewId := row] else old(db.videoViews))
      && db.videos == (if inserted && replies.countOk && replies.updateOk
                       then SetViews(old(db.videos), videoId, PageLength(|ViewIdsOf(db.videoViews, videoId)|, replies.maxRows))
                       else old(db.videos))
    ensures db.videosForApproval == old(db.videosForApproval) && db.thumbnails == old(db.thumbnails)
    ensures db.follows == old(db.follows)
  {
    if videoId == "" {
      return;
    }
    var sessionId := SessionIdFor(store.sessionId, replies.generatedSessionId);
    store.sessionId := Some(sessionId);
    if replies.alreadyViewed {
      return;
    }
    if !InsertSucceeds(replies.insertOk, db.videoViews, replies.newViewId) {
      return;
    }
    db.videoViews := db.videoViews[replies.newViewId := ViewRow(videoId, ViewerId(profile), sessionId)];
    if replies.countOk {
      var count := PageLength(|ViewIdsOf(db.videoViews, videoId)|, replies.maxRows);
      if replies.updateOk {
        db.videos := SetViews(db.videos, videoId, count);
      }
    }
  }

  /** Below the page size, after a recorded view the video's counter is one
      more than the number of rows it had before: the recount agrees with an
      increment when no other writer interferes. */
  lemma RecountAfterInsert(views: map<string, ViewRow>, videos: map<string, VideoRecord>,
                           videoId: string, newId: string, row: ViewRow, maxRows: nat)
    requires newId !in views && row.videoId == videoId && videoId in videos
    requires |ViewIdsOf(views, videoId)| < maxRows
    ensures var views' := views[newId := row];
      var videos' := SetViews(videos, videoId, PageLength(|ViewIdsOf(views', videoId)|, maxRows));
      videos'[videoId].views == Some(|ViewIdsOf(views, videoId)| + 1)
  {
    ViewCountAfterInsert(views, newId, row, videoId);
  }

  /** From the page size on, the counter stops growing: a video that already
      has `maxRows` view rows is written `maxRows` after a further view, one
      less than its rows. */
  lemma RecountSaturates(views: map<string, ViewRow>, videos: map<string, VideoRecord>,
                         videoId: string, newId: string, row: ViewRow, maxRows: nat)
    requires newId !in views && row.videoId == videoId && videoId in videos
    requires |ViewIdsOf(views, videoId)| >= maxRows
    ensures var views' := views[newId := row];
      var videos' := SetViews(videos, videoId, PageLength(|ViewIdsOf(views', videoId)|, maxRows));
      && videos'[videoId].views == Some(maxRows)
      && maxRows < |ViewIdsOf(views', videoId)|
  {
    ViewCountAfterInsert(views, newId, row, videoId);
  }

  /** A second run with the same stored session id, after the first one
      stored it, uses the same id: the session id is created once per
      browser and reused. */
  lemma SessionIdIsStable(stored: Option<string>, generated: string, generatedLater: string)
    ensures var first := SessionIdFor(stored, generated);
      first != "" ==> SessionIdFor(Some(first), generatedLater) == first
  {
  }
}
